=== FILE: README.md ===
# mockserver, modelled in Dafny

A model of the request resolution and mock-file parsing of `mockserver`
(mockserver.js), and of its small identity monad (monad.js).

The server answers an HTTP request from a directory of `.mock` files. Each
file holds a status line, header lines, a blank line and a body. For a request
`GET /a/b?x=1` the server works as follows:

- It splits the URL into the path `/a/b` and the query `x=1`.
- For every watched request header the request carries, it builds a fragment
  `_Name=value`.
- It arranges the fragments into candidate prefixes: longest selections
  first, and the bare method `GET` last.
- For each candidate it probes `a/b/<prefix>--x=1.mock`, falling back to
  `a/b/<prefix>.mock`.
- The most specific candidate with a non-empty file wins.
- When nothing matches at the URL's own path, it tries a wildcard directory,
  where a directory named `__` stands for any one segment.
- When that fails too, it answers `404 Not Mocked`.

The model has these modules:

- `Text`: the JavaScript string primitives the server uses (`indexOf`,
  `split`, `join`, a global `replace` that deletes a character, and
  `removeBlanks`), with their round-trip laws.
- `MockFile`: `parseStatus`, `parseHeader`, `parseValue` and `parse`. It also
  has a renderer for mock files, so that parsing can be stated as its inverse.
- `WatchedHeaders`: `prepareWatchedHeaders`.
- `Wildcard`: `getWildcardPath`, `matchWildcardPaths` and `matchWildcardPath`.
- `Candidates`: the header fragments and the stable longest-first ordering of
  candidate arrangements.
- `Resolution`:
  - `getBodyOrQueryString`, `getMockedContent` and `getContentFromPermutations`;
  - the pure part of `handle`: the URL split, the exact-then-wildcard lookup,
    and the 404 answer.
- `Monad`: `Monad.of`, `map`, `join` and `chain`, with the monad laws.
- `Scenarios`: requests from the repository's test suite (test/mockserver.js),
  proved against a mock directory that holds the files those tests rely on.

The server's collaborators are parameters of the model, as fields of the
`Host` datatype. Every property holds whatever they compute. They are:

- the `header-case-normalizer` package;
- `toUpperCase` and `toLowerCase`;
- the JavaScript evaluation behind `#header`;
- the file read behind `#import`;
- `permutationCombination` of `js-combinatorics`.

The mock directory is a map from a file's path, relative to the directory and
with segments joined by `/`, to its UTF-8 text. The directories that contain a
`__` segment are given as a list.

## Model

| member | source | states |
|---|---|---|
| Text.IndexOf | mockserver.js:275 | `indexOf` is -1 exactly when the separator does not occur; otherwise it is an occurrence with none before it |
| Text.SplitOn | mockserver.js:43 | `split` always gives at least one piece, so splitting empty text gives `['']` |
| Text.SplitOnSingle | mockserver.js:43 | `split(sep)` gives `[s]` exactly when `sep` does not occur in `s` |
| Text.JoinWithEnds | mockserver.js:111 | a join starts with its first part and ends with its last; joining no parts gives `''` |
| Text.SplitOnJoinBack | mockserver.js:14 | joining the pieces of `split(sep)` with `sep` gives back the split text |
| Text.SplitOnPiecesFree | mockserver.js:43 | no piece of `split(sep)` contains `sep` |
| Text.SplitAny | mockserver.js:144 | splitting on either slash yields at least one piece, and no piece holds a slash |
| Text.SplitAnyJoin | mockserver.js:144 | splitting pieces without slashes, joined by a slash, gives the pieces back |
| Text.Without | mockserver.js:276 | `replace(/\?/g, '')` leaves no `?` and keeps every other character with its multiplicity |
| Text.WithoutAppend | mockserver.js:276 | deleting `?` works character by character: it distributes over concatenation, so the kept characters stay in their order |
| Text.RemoveBlanks | mockserver.js:99-101 | the result has no empty string, has only elements of the input, and is no longer than the input |
| Text.RemoveBlanksCounts | mockserver.js:99-101 | every non-empty string occurs in the result as often as in the input |
| Text.RemoveBlanksAppend | mockserver.js:99-101 | the filter works element by element, so it distributes over concatenation (order is kept) |
| Text.RemoveBlanksNone | mockserver.js:99-101 | a list without empty strings comes back unchanged |
| MockFile.SplitLines | mockserver.js:59 | `split(/\r?\n/)` gives at least one line, and no line contains a line feed |
| MockFile.SplitLinesCRLF | mockserver.js:59 | a carriage return and line feed end a line and the carriage return is dropped: the lines of `a + CR LF + b` are those of `a` followed by those of `b` |
| MockFile.SplitLinesJoin | mockserver.js:59 | for text without CR LF, joining the lines with LF gives the text back |
| MockFile.SplitLinesOfJoin | mockserver.js:59 | splitting LF-joined lines that hold no LF (and only the last may end in CR) gives the lines back |
| MockFile.FirstBlank | mockserver.js:64-71 | the index of the first line that is `''` or `'\r'`; every line before it is a header line |
| MockFile.Sections | mockserver.js:62-71 | status line, non-blank header lines, one blank line and body lines split back into exactly those parts |
| MockFile.ParseStatus | mockserver.js:13-15 | the status is undefined exactly when the first line has no space; otherwise it is a token without a space |
| MockFile.StatusIsSecondToken | mockserver.js:13-15 | for `protocol code rest`, where `rest` is empty or starts with a space, the status is exactly `code` |
| MockFile.StatusOfOkLine | mockserver.js:13-15 | `HTTP/1.1 200 OK` gives the status `200` |
| MockFile.ParseValue | mockserver.js:27-35 | a value with no line starting `#header` is returned unchanged |
| MockFile.ParseHeader | mockserver.js:21-25 | a line without `": "` gives its normalised whole text as key and an undefined value |
| MockFile.HeaderLine | mockserver.js:21-25 | `key: value[: more]` gives the normalised key and `parseValue` of the text between the first and second `": "` |
| MockFile.HeaderMap | mockserver.js:73-74 | the keys are exactly the header lines' keys; each key maps to the value of its last line |
| MockFile.HeaderMapSnoc | mockserver.js:73-74 | a further header line overwrites its key in the map of the lines before it |
| MockFile.Step | mockserver.js:64-77 | a blank line ends the header section and is dropped; before it a line's parsed header is set in the map, overwriting its key, and the body is untouched; after it every line is appended to the body and the headers are untouched |
| MockFile.Scan | mockserver.js:64-77 | body lines are only appended, at most one per line, and once ended the header section never reopens |
| MockFile.ScanAppend | mockserver.js:64-77 | the `forEach` over two runs of lines is the scan of the second run from the state the first leaves |
| MockFile.ScanAfterEnd | mockserver.js:66-68 | after the blank line every line goes to the body, unchanged and in order |
| MockFile.ScanHeaders | mockserver.js:64-77 | over non-blank lines the scan builds exactly the header map, with no body |
| MockFile.ScanSplit | mockserver.js:62-79 | header lines up to a cut point, then either nothing or a blank line and more lines: the scan ends in the body section exactly when the blank line is there, keeps the header map of the lines before the cut, and makes the lines after the blank one the body |
| MockFile.ScanShape | mockserver.js:62-79 | the scan splits the lines at the first blank line: header map before it, body lines after it, the blank line itself dropped |
| MockFile.Parse | mockserver.js:55-97 | status from the first line only; headers from the lines before the first blank; body is the later lines joined by LF; `#import` applies only when a body line starts with it; no blank line gives an empty body |
| MockFile.RenderLines | mockserver.js:59 | a rendered mock splits into the status line, the header lines, one blank line and the body's lines |
| MockFile.RenderSections | mockserver.js:59-77 | in a rendered mock the status line, the header section and the body lines are exactly the parts rendered |
| MockFile.RenderRoundTrip | mockserver.js:55-97 | parsing a rendered mock gives its status token, the header map of its header lines, and its body verbatim |
| WatchedHeaders.FirstIndex | mockserver.js:46 | `indexOf` on an array: the first position holding the item, or the length when it is absent |
| WatchedHeaders.FirstOccurrences | mockserver.js:45-47 | keeps exactly the non-empty items, each once, in the order of their first occurrence |
| WatchedHeaders.PrepareWatchedHeaders | mockserver.js:41-48 | the non-empty comma-separated names without duplicates, in first-occurrence order; a non-empty exported setting takes priority over `MOCK_HEADERS`; no name holds a comma |
| Wildcard.MatchFrom | mockserver.js:153-159 | the loop succeeds exactly when every remaining position agrees from the end |
| Wildcard.DirSteps | mockserver.js:144 | a listed directory has at least one segment, and no segment holds either kind of slash |
| Wildcard.PathSteps | mockserver.js:135 | a request path's segments are non-empty and hold no `/` |
| Wildcard.ProbePath | mockserver.js:111 | the probed path ends in `/__`, after the segments joined by `/` when there are any |
| Wildcard.MatchWildcardPath | mockserver.js:152-161 | succeeds exactly when every request segment, counted from the end, equals the directory's segment or that segment is `__`; on success the result is `/` plus the directory's segments joined by `/` |
| Wildcard.MatchAligned | mockserver.js:152-161 | for equally long paths the match is position-by-position equality or `__` |
| Wildcard.FirstQualifying | mockserver.js:143-148 | the first listed directory with the request's segment count that matches it, or the list's length |
| Wildcard.MatchPathsFrom | mockserver.js:143-149 | the loop returns the match of the first qualifying directory, or null when none qualifies |
| Wildcard.MatchWildcardPaths | mockserver.js:142-150 | null exactly when no listed directory qualifies; otherwise the match of the first qualifying one in list order |
| Wildcard.ProbeLoop | mockserver.js:109-114 | the probe loop's result is `<prefix>/__` for the shortest proper prefix of the segments with a `__` directory under it, and unchanged when there is none |
| Wildcard.GetWildcardPath | mockserver.js:103-140 | a listed match wins, and the first qualifying directory is the one chosen; otherwise the probe loop's hit; otherwise none |
| Wildcard.PickListedOrProbed | mockserver.js:137 | `matchWildcardPaths(res, steps) \|\| newPath` chooses the listed match over the probe hit |
| Wildcard.PathStepsTrailingSlash | mockserver.js:135 | `/a/b/` and `/a/b` give the same segments |
| Wildcard.GetWildcardPathTrailingSlash | mockserver.js:103-140 | a trailing slash does not change the wildcard directory chosen |
| Candidates.Fragment | mockserver.js:286-288 | a fragment starts with `_` |
| Candidates.HeaderFragments | mockserver.js:284-291 | at most one fragment per watched header; none exactly when the request carries no watched header |
| Candidates.HeaderFragmentsAppend | mockserver.js:285-290 | fragments are built header by header, in watched order |
| Candidates.HeaderFragmentsSingle | mockserver.js:286-289 | one watched header gives its fragment when its value is truthy, and nothing otherwise |
| Candidates.Insert | mockserver.js:299 | inserting into a sorted list keeps it sorted, adds exactly the element, and puts it after the equally long ones |
| Candidates.SortByArity | mockserver.js:299 | the sort is longest first, a permutation of its input, and stable: equally long arrangements keep their relative order |
| Candidates.StableSortUnique | mockserver.js:299 | a stable longest-first sort has only one possible result |
| Candidates.Arrangements | mockserver.js:295-301 | `[[]]` without fragments; otherwise the arrangements sorted longest first, as a stable permutation, followed by `[]` |
| Resolution.SplitUrl | mockserver.js:275-282 | the query is what follows the first `?` with every `?` deleted; the path is what precedes it, unless the `?` is at index 0 |
| Resolution.BodyOrQuerySuffix | mockserver.js:193-203 | `--query` when there is a query, else `--body` when there is a body, else empty; empty exactly when both are |
| Resolution.BodyOrQuerySuffixDecodes | mockserver.js:193-203 | the suffix reads back: after `--` it holds the query when there is one, else the body, so equal suffixes carry equal text |
| Resolution.FileKeyTrailingSlash | mockserver.js:231 | a trailing slash on the directory does not change the file addressed |
| Resolution.FileKeySegments | mockserver.js:231 | the file key's segments are the path's non-empty segments followed by the name's; with none the key is empty |
| Resolution.ProbeNames | mockserver.js:229-247 | one or two names, the plain `prefix.mock` last; two exactly when there is a body or query, the first then carrying the suffix |
| Resolution.FirstStored | mockserver.js:229-247 | nothing exactly when no name has a file; otherwise the content of the first name that has one |
| Resolution.GetMockedContent | mockserver.js:229-247 | whatever is returned is the content of a mock file |
| Resolution.GetMockedContentProbes | mockserver.js:229-247 | the result is the content of the first existing file among `prefix+suffix.mock` and then `prefix.mock`; the second is probed only with a body or query |
| Resolution.PermutationLoop | mockserver.js:252-255 | the content is that of the lowest-index candidate with truthy content, and the prefix is the first candidate's |
| Resolution.LoopSameLookups | mockserver.js:252-255 | the loop depends only on the lookups of the candidates' prefixes |
| Resolution.GetContentFromPermutations | mockserver.js:249-258 | no content exactly when no candidate has truthy content; otherwise the first such candidate's content, with the first candidate's prefix |
| Resolution.CandidateList | mockserver.js:293-301 | there is always at least one candidate |
| Resolution.ExactSearch | mockserver.js:272-282 | the method is upper-cased, the body passed on, the query holds no `?`, and a URL without `?` is the path as it is, with an empty query |
| Resolution.BareMethodOnly | mockserver.js:284-296 | with no watched header on the request, the only candidate is the bare upper-cased method |
| Resolution.ResolveIn | mockserver.js:303-309 | the exact path wins when any candidate hits there; the wildcard path is consulted only otherwise; a hit is never empty; the file is named after the first candidate |
| Resolution.Resolve | mockserver.js:269-309 | the same, for the path, query, method and candidates of a request |
| Resolution.ResolveFirstHit | mockserver.js:303-310 | the first hitting candidate at the URL's path gives the content and file |
| Resolution.Handle | mockserver.js:309-317 | `404` with `Not Mocked` exactly when nothing resolves; otherwise the found file's status token, its header map, and its body, which is the `#import` result when a body line starts with `#import` |
| Resolution.GetMockedContentTrailingSlash | mockserver.js:229-231 | a trailing slash on the path reads the same file |
| Resolution.SearchTrailingSlash | mockserver.js:249-258 | a trailing slash on the searched path finds the same content |
| Resolution.ExactSearchTrailingSlash | mockserver.js:272-282 | for a URL without `?`, a trailing slash only adds the slash to the path |
| Resolution.ResolveTrailingSlash | mockserver.js:272-309 | a URL without `?` resolves with or without a trailing slash to the same file and content |
| Resolution.HandleTrailingSlash | mockserver.js:269-319 | a URL without `?` is answered the same with or without a trailing slash, given `#import` output that does not depend on the request |
| Monad.Of | monad.js:13-15 | `Monad.of(v).join()` is `v` |
| Monad.Monad.Map | monad.js:3-5 | `m.map(f)` holds `f` of the held value |
| Monad.Monad.Chain | monad.js:9-11 | `m.chain(f)` is `f` of the held value |
| Monad.OfJoin | monad.js:6-15 | `Monad.of(v).join()` is `v`, and `of` after `join` gives the wrapper back |
| Monad.MapIdentity | monad.js:3-5 | mapping the identity changes nothing |
| Monad.MapComposition | monad.js:3-5 | `m.map(f).map(g)` is `m.map(x => g(f(x)))` |
| Monad.LeftIdentity | monad.js:9-15 | `Monad.of(v).chain(f)` is `f(v)` |
| Monad.RightIdentity | monad.js:9-15 | `m.chain(Monad.of)` is `m` |
| Monad.Associativity | monad.js:9-11 | chaining `f` then `g` is chaining `x => f(x).chain(g)` |
| Scenarios.ParsedOk | test/mockserver.js:76-82 | a mock with status line `HTTP/1.1 200 OK` parses to status `200`, its header map and its body |
| Scenarios.GetTest | test/mockserver.js:76-82 | `GET /test` answers status `200`, the header `Content-Type: text` and the body `Welcome!` |
| Scenarios.NotThere | test/mockserver.js:84-89 | `GET /not-there` answers `404 Not Mocked` |
| Scenarios.GetTestTrailingSlash | test/mockserver.js:91-97 | `GET /test/` answers as `GET /test` does |
| Scenarios.WildcardSlug | test/mockserver.js:386-398 | `getWildcardPath` picks `/wildcard/__` for `/wildcard/<slug>`, any slug, when `wildcard/__` is the first listed wildcard directory |
| Scenarios.WildcardServed | test/mockserver.js:386-398 | without `wildcard/<slug>/GET.mock`, `GET /wildcard/<slug>` resolves to the content of `wildcard/__/GET.mock`, for any slug |
| Scenarios.WildcardServedHandle | test/mockserver.js:386-398 | that request is answered with `wildcard/__/GET.mock`, parsed |
| Scenarios.WildcardExactWins | test/mockserver.js:421-426 | a non-empty `wildcard/<slug>/GET.mock` is served in place of `wildcard/__` |
| Scenarios.WildcardMissingSlug | test/mockserver.js:428-432 | `/wildcard/` has no slug, so `wildcard/__` does not serve it |

## Left out

- Transport: `getBody`, `writeHead` and `end` (mockserver.js:217-227, 311-316) are I/O. The body arrives as a string, and the reply is a value.
- The command-line entry point (bin/mockserver.js) and `init` (mockserver.js:264-268) bind a listener and read settings. Their only pure part is `prepareWatchedHeaders`, and that is modelled.
- Directory enumeration (mockserver.js:116-133, 163-178) reads the file system, so the wildcard directories are an input list. The list's order is taken as given. The comparator compares arrays by reference and by string coercion, so it does not order them by depth; no depth order is assumed.
- `fs.existsSync` in the probe loop (mockserver.js:112) is answered from the same list: `<prefix>/__` exists when a listed directory has exactly those segments.
- `path.join` is modelled as collapsing empty segments. `.` and `..` segments are not resolved.
- Arbitrary JavaScript is not modelled: the `#header` evaluation (mockserver.js:29-32) and the `#import` read and evaluation (mockserver.js:82-93) are host functions. The model fixes only when they apply.
- `header-case-normalizer`, `toUpperCase`, `toLowerCase` and `permutationCombination` are host functions, since their output is the libraries' own. The candidate ordering is proved for whatever selections `permutationCombination` lists.
- Verbose logging and `colors` have no behaviour to state.
- The `Response-Delay` header and multi-value headers appear in test/mockserver.js but mockserver.js does not implement them: a repeated header keeps its last value (mockserver.js:74) and there is no response delay.
- Resolution.Handle: the `#import` script and the `#header` expression are host functions of the file and text alone. In mockserver.js a `#import` script is evaluated inside `parse(content, file, request)` (mockserver.js:82-93, `eval` at 88), so it can read the request and the clock (test/mockserver.js:344-376). A `#header` expression is evaluated in the module-level `parseValue` (mockserver.js:27-35, `eval` at 31), where no request is in scope, so it can read the clock and module state but not the request (test/mockserver.js:378-383). The model treats both outputs as independent of the request, the clock and module state.
- Resolution.HandleTrailingSlash: holds for that model of `#import`. Only `#import` output can depend on `request.url`: a `#import` script that reads it can answer `/x` and `/x/` differently, and that case is not covered. A `#header` expression cannot see the request.
- Candidates.SortByArity: assumes `Array.prototype.sort` is stable (mockserver.js:299), which ECMAScript guarantees from ES2019 (Node 11 and later).
- Resolution.GetMockedContent: its own contract says only that a result comes from the store; the probe order is stated by Resolution.GetMockedContentProbes.
- MockFile.ParseValue: states nothing about values that have a `#header` line, because the directive's result is a host function.
- Scenarios.WildcardMissingSlug: proved with `wildcard/__` as the only wildcard directory, not the test suite's full tree.
- Scenarios.WildcardServed: proved for any mock directory with a non-empty `wildcard/__/GET.mock` and `wildcard/__` listed first; the test suite's file contents are not reproduced.
- Monad values are immutable here, so the monad laws hold as equality of the values held. JavaScript's `map`, `chain` and `of` return new objects, and object identity is not modelled.
- Scenarios.NotThere: proved with `wildcard/__` as the only wildcard directory, not the test suite's full tree.

## Behaviour of mockserver.js worth noting

The model follows mockserver.js in each case.

- A header name that repeats keeps its last value (mockserver.js:74). The test suite expects repeated values to be combined into a list (test/mockserver.js:109-113).
- The status is the raw second token of the first line, and is undefined when that line has no space. It is not checked to be a number.
- `getContentFromPermutations` looks up every candidate, not only up to the first hit. It returns the first candidate's prefix even when a later candidate matched. That prefix names the file handed to `#import`.
- A mock file that exists but is empty counts as no match (JavaScript falsiness), so the server falls through to the wildcard search or to 404.
- A URL that starts with `?` keeps the whole URL as its path. Its query is still taken from it (mockserver.js:280).
- Besides the listed wildcard directories, `getWildcardPath` probes `<prefix>/__` for the proper prefixes of the request path. When no listed directory matches, the shortest such prefix with a `__` directory wins.

=== FILE: candidates.dfy ===
/**
 * The candidate file-name prefixes of a request (the middle of `handle` in
 * mockserver.js): one `_Name=value` fragment per watched header the request
 * carries, arranged into every ordered selection of fragments, longest
 * selections first, and finally the bare method with no fragment at all.
 */
module Candidates {
  import opened Text
  import opened Host

  /** `req.headers[header.toLowerCase()]` is truthy: present and not empty. */
  predicate Present(host: Host, reqHeaders: map<string, string>, name: string) {
    host.lower(name) in reqHeaders && reqHeaders[host.lower(name)] != ""
  }

  /** `'_' + normalizeHeader(header) + '=' + req.headers[header]`, with `header` lower-cased. */
  function Fragment(host: Host, reqHeaders: map<string, string>, name: string): (f: string)
    requires Present(host, reqHeaders, name)
    ensures |f| > 0 && f[0] == '_'
  {
    "_" + host.normalize(host.lower(name)) + "=" + reqHeaders[host.lower(name)]
  }

  /** The fragments of the watched headers the request carries, in watched order. */
  function HeaderFragments(host: Host, watched: seq<string>, reqHeaders: map<string, string>): (r: seq<string>)
    ensures |r| <= |watched|
    ensures r == [] <==> forall i :: 0 <= i < |watched| ==> !Present(host, reqHeaders, watched[i])
    ensures forall k :: 0 <= k < |r| ==> |r[k]| > 0 && r[k][0] == '_'
  {
    if |watched| == 0 then []
    else
      var rest := HeaderFragments(host, watched[1..], reqHeaders);
      assert forall i :: 1 <= i < |watched| ==> watched[i] == watched[1..][i - 1];
      if Present(host, reqHeaders, watched[0]) then [Fragment(host, reqHeaders, watched[0])] + rest
      else rest
  }

  /**
   * The fragments are computed header by header: those of a concatenation of
   * watched lists are the concatenation of their fragments.
   */
  lemma {:induction false} HeaderFragmentsAppend(host: Host, a: seq<string>, b: seq<string>, reqHeaders: map<string, string>)
    ensures HeaderFragments(host, a + b, reqHeaders) == HeaderFragments(host, a, reqHeaders) + HeaderFragments(host, b, reqHeaders)
    decreases |a|
  {
    if |a| == 0 {
      assert a + b == b;
    } else {
      assert (a + b)[1..] == a[1..] + b;
      HeaderFragmentsAppend(host, a[1..], b, reqHeaders);
    }
  }

  /** One watched header gives its fragment when the request carries it, and nothing otherwise. */
  lemma HeaderFragmentsSingle(host: Host, name: string, reqHeaders: map<string, string>)
    ensures Present(host, reqHeaders, name) ==> HeaderFragments(host, [name], reqHeaders) == [Fragment(host, reqHeaders, name)]
    ensures !Present(host, reqHeaders, name) ==> HeaderFragments(host, [name], reqHeaders) == []
  {
    assert [name][1..] == [];
  }

  // ---------------------------------------------------------------------------
  // Ordering: `.sort((a, b) => b.length - a.length)`, a stable sort
  // ---------------------------------------------------------------------------

  /** Longer selections come first. */
  predicate SortedByArity(ps: seq<seq<string>>) {
    forall i, j :: 0 <= i < j < |ps| ==> |ps[i]| >= |ps[j]|
  }

  /** The selections with exactly `n` fragments, in their order in `ps`. */
  function OfArity(ps: seq<seq<string>>, n: nat): (r: seq<seq<string>>)
    ensures forall k :: 0 <= k < |r| ==> |r[k]| == n
    ensures |r| <= |ps|
  {
    if |ps| == 0 then []
    else (if |ps[0]| == n then [ps[0]] else []) + OfArity(ps[1..], n)
  }

  lemma {:induction false} OfArityAppend(a: seq<seq<string>>, b: seq<seq<string>>, n: nat)
    ensures OfArity(a + b, n) == OfArity(a, n) + OfArity(b, n)
    decreases |a|
  {
    if |a| == 0 {
      assert a + b == b;
    } else {
      assert (a + b)[1..] == a[1..] + b;
      OfArityAppend(a[1..], b, n);
    }
  }

  lemma {:induction false} OfArityNone(ps: seq<seq<string>>, n: nat)
    requires forall k :: 0 <= k < |ps| ==> |ps[k]| != n
    ensures OfArity(ps, n) == []
    decreases |ps|
  {
    if |ps| > 0 {
      OfArityNone(ps[1..], n);
    }
  }

  /** Places `p` after every element of the sorted `ps` at least as long as it. */
  function Insert(p: seq<string>, ps: seq<seq<string>>): (r: seq<seq<string>>)
    requires SortedByArity(ps)
    ensures SortedByArity(r)
    ensures multiset(r) == multiset(ps) + multiset{p}
    ensures forall n: nat :: OfArity(r, n) == OfArity(ps + [p], n)
    decreases |ps|
  {
    if |ps| == 0 then [p]
    else if |ps[0]| >= |p| then
      var rest := Insert(p, ps[1..]);
      InsertBehind(p, ps, rest);
      [ps[0]] + rest
    else
      InsertAhead(p, ps);
      [p] + ps
  }

  /** Prepending an element at least as long as every other keeps a sequence sorted. */
  lemma SortedCons(x: seq<string>, rest: seq<seq<string>>)
    requires SortedByArity(rest)
    requires forall k :: 0 <= k < |rest| ==> |x| >= |rest[k]|
    ensures SortedByArity([x] + rest)
  {
    forall i, j | 0 <= i < j < |[x] + rest|
      ensures |([x] + rest)[i]| >= |([x] + rest)[j]|
    {
      if i > 0 {
        assert ([x] + rest)[i] == rest[i - 1];
      }
      assert ([x] + rest)[j] == rest[j - 1];
    }
  }

  /** `Insert` past the first element: the rest, inserted into, follows it. */
  lemma InsertBehind(p: seq<string>, ps: seq<seq<string>>, rest: seq<seq<string>>)
    requires SortedByArity(ps) && |ps| > 0 && |ps[0]| >= |p|
    requires SortedByArity(rest)
    requires multiset(rest) == multiset(ps[1..]) + multiset{p}
    requires forall n: nat :: OfArity(rest, n) == OfArity(ps[1..] + [p], n)
    ensures SortedByArity([ps[0]] + rest)
    ensures multiset([ps[0]] + rest) == multiset(ps) + multiset{p}
    ensures forall n: nat :: OfArity([ps[0]] + rest, n) == OfArity(ps + [p], n)
  {
    assert ps == [ps[0]] + ps[1..];
    HeadBoundsRest(p, ps, rest);
    SortedCons(ps[0], rest);
    ArityBehind(p, ps, rest);
  }

  /** Putting the same head in front of arity-equal lists keeps them arity-equal. */
  lemma ArityBehind(p: seq<string>, ps: seq<seq<string>>, rest: seq<seq<string>>)
    requires |ps| > 0
    requires forall n: nat :: OfArity(rest, n) == OfArity(ps[1..] + [p], n)
    ensures forall n: nat :: OfArity([ps[0]] + rest, n) == OfArity(ps + [p], n)
  {
    forall n: nat
      ensures OfArity([ps[0]] + rest, n) == OfArity(ps + [p], n)
    {
      assert (ps + [p])[0] == ps[0];
      assert (ps + [p])[1..] == ps[1..] + [p];
      assert ([ps[0]] + rest)[1..] == rest;
    }
  }

  /** The head of a sorted `ps` is at least as long as `p` and as the rest of `ps`, in any order. */
  lemma HeadBoundsRest(p: seq<string>, ps: seq<seq<string>>, rest: seq<seq<string>>)
    requires SortedByArity(ps) && |ps| > 0 && |ps[0]| >= |p|
    requires multiset(rest) == multiset(ps[1..]) + multiset{p}
    ensures forall k :: 0 <= k < |rest| ==> |ps[0]| >= |rest[k]|
  {
    forall k | 0 <= k < |rest|
      ensures |ps[0]| >= |rest[k]|
    {
      assert rest[k] in multiset(rest);
      if rest[k] != p {
        assert rest[k] in multiset(ps[1..]);
        var m :| 0 <= m < |ps[1..]| && ps[1..][m] == rest[k];
        assert ps[m + 1] == rest[k];
      }
    }
  }

  /** `Insert` ahead of the first element, which is shorter than `p`. */
  lemma InsertAhead(p: seq<string>, ps: seq<seq<string>>)
    requires SortedByArity(ps) && |ps| > 0 && |ps[0]| < |p|
    ensures SortedByArity([p] + ps)
    ensures forall n: nat :: OfArity([p] + ps, n) == OfArity(ps + [p], n)
  {
    SortedCons(p, ps);
    forall n: nat
      ensures OfArity([p] + ps, n) == OfArity(ps + [p], n)
    {
      OfArityAppend([p], ps, n);
      OfArityAppend(ps, [p], n);
      if n == |p| {
        OfArityNone(ps, n);
      }
    }
  }

  /**
   * `permutations.sort((a, b) => b.length - a.length)`: a stable sort, longest
   * selections first, equally long ones keeping their relative order.
   */
  function SortByArity(ps: seq<seq<string>>): (r: seq<seq<string>>)
    ensures SortedByArity(r)
    ensures multiset(r) == multiset(ps)
    ensures forall n: nat :: OfArity(r, n) == OfArity(ps, n)
    decreases |ps|
  {
    if |ps| == 0 then []
    else
      var init := ps[..|ps| - 1];
      var last := ps[|ps| - 1];
      var sorted := SortByArity(init);
      var r := Insert(last, sorted);
      assert ps == init + [last];
      assert forall n: nat :: OfArity(r, n) == OfArity(ps, n) by {
        forall n: nat
          ensures OfArity(r, n) == OfArity(ps, n)
        {
          OfArityAppend(sorted, [last], n);
          OfArityAppend(init, [last], n);
        }
      }
      r
  }

  /**
   * Two sequences sorted by length with the same selections of each length,
   * in the same order, are equal: the stable sort's result is unique.
   */
  lemma {:induction false} StableSortUnique(a: seq<seq<string>>, b: seq<seq<string>>)
    requires SortedByArity(a) && SortedByArity(b)
    requires forall n: nat :: OfArity(a, n) == OfArity(b, n)
    ensures a == b
    decreases |a| + |b|
  {
    if |b| == 0 {
      NoArities(a, b);
    } else if |a| == 0 {
      NoArities(b, a);
    } else {
      LongestFirst(a, b);
      LongestFirst(b, a);
      var n := |a[0]|;
      assert |b[0]| == n;
      forall m: nat
        ensures OfArity(a[1..], m) == OfArity(b[1..], m)
      {
        assert OfArity(a, m) == OfArity(b, m);
        assert OfArity(a, m) == (if |a[0]| == m then [a[0]] else []) + OfArity(a[1..], m);
        assert OfArity(b, m) == (if |b[0]| == m then [b[0]] else []) + OfArity(b[1..], m);
        if m == n {
          assert OfArity(a, m)[0] == a[0];
          assert OfArity(b, m)[0] == b[0];
          assert OfArity(a[1..], m) == OfArity(a, m)[1..];
          assert OfArity(b[1..], m) == OfArity(b, m)[1..];
        } else {
          assert OfArity(a[1..], m) == OfArity(a, m);
          assert OfArity(b[1..], m) == OfArity(b, m);
        }
      }
      StableSortUnique(a[1..], b[1..]);
      assert OfArity(a, n)[0] == a[0];
      assert OfArity(b, n)[0] == b[0];
      assert a == [a[0]] + a[1..];
      assert b == [b[0]] + b[1..];
    }
  }

  /** Only the empty sequence has no selection of any length. */
  lemma NoArities(a: seq<seq<string>>, b: seq<seq<string>>)
    requires |b| == 0
    requires forall n: nat :: OfArity(a, n) == OfArity(b, n)
    ensures |a| == 0
  {
    assert |a| > 0 ==> OfArity(a, |a[0]|) != [];
  }

  /** In a sorted sequence the first element is a longest one, so no other has more fragments. */
  lemma LongestFirst(a: seq<seq<string>>, b: seq<seq<string>>)
    requires |a| > 0 && |b| > 0
    requires SortedByArity(a) && SortedByArity(b)
    requires forall n: nat :: OfArity(a, n) == OfArity(b, n)
    ensures |a[0]| >= |b[0]|
  {
    var m := |b[0]|;
    assert OfArity(b, m) != [] by {
      assert OfArity(b, m) == [b[0]] + OfArity(b[1..], m);
    }
    assert OfArity(a, m) == OfArity(b, m);
    OfArityMember(a, m);
    var k :| 0 <= k < |a| && |a[k]| == m;
    assert k == 0 || |a[0]| >= |a[k]|;
  }

  /** A non-empty selection of length `m` is an element of the sequence of that length. */
  lemma {:induction false} OfArityMember(ps: seq<seq<string>>, m: nat)
    requires OfArity(ps, m) != []
    ensures exists k :: 0 <= k < |ps| && |ps[k]| == m
    decreases |ps|
  {
    if |ps[0]| != m {
      OfArityMember(ps[1..], m);
      var k :| 0 <= k < |ps[1..]| && |ps[1..][k]| == m;
      assert |ps[k + 1]| == m;
    }
  }

  /**
   * The candidate list of `handle`: `[[]]` when the request carries no watched
   * header, else every ordered selection of fragments (as the combinatorics
   * package lists them) stably sorted longest first, then `[]`.
   */
  function Arrangements(host: Host, fragments: seq<string>): (r: seq<seq<string>>)
    ensures |r| >= 1 && r[|r| - 1] == []
    ensures |fragments| == 0 ==> r == [[]]
    ensures |fragments| > 0 ==>
              var selections := host.permutationCombination(fragments);
              && |r| == |selections| + 1
              && SortedByArity(r[..|r| - 1])
              && multiset(r[..|r| - 1]) == multiset(selections)
              && forall n: nat :: OfArity(r[..|r| - 1], n) == OfArity(selections, n)
  {
    if |fragments| == 0 then [[]]
    else
      var sorted := SortByArity(host.permutationCombination(fragments));
      var r := sorted + [[]];
      assert r[..|r| - 1] == sorted;
      assert |sorted| == |multiset(sorted)|;
      r
  }
}

=== FILE: host.dfy ===
/**
 * The collaborators the server calls but does not define. Each one is a
 * total function supplied by the caller, so every property proved here
 * holds whatever they compute.
 */
module Host {

  datatype Host = Host(
    /** The `header-case-normalizer` package, e.g. `content-type` to `Content-Type`. */
    normalize: string -> string,
    /** `String.prototype.toUpperCase`, applied to the request method. */
    upper: string -> string,
    /** `String.prototype.toLowerCase`, applied to each watched header name. */
    lower: string -> string,
    /**
     * The `#header` directive of a header value: the matched statement is
     * evaluated as JavaScript and line endings are normalised.
     */
    headerDirective: string -> string,
    /**
     * The `#import` directive of a body, given the mock file's path and the
     * body: the named file is read (and evaluated when it ends in `.js`).
     */
    importer: (string, string) -> string,
    /**
     * `Combinatorics.permutationCombination(xs).toArray()` of the
     * `js-combinatorics` package, in the package's own order.
     */
    permutationCombination: seq<string> -> seq<seq<string>>
  )
}

=== FILE: mockfile.dfy ===
/**
 * The mock file format and its parser (`parseStatus`, `parseHeader`,
 * `parseValue` and `parse` in mockserver.js):
 *
 *     HTTP/1.1 200 OK
 *     Content-Type: text
 *
 *     Welcome!
 *
 * The first line carries the status, the following non-blank lines are
 * headers, and everything after the first blank line is the body.
 */
module MockFile {
  import opened Wrappers
  import opened Text
  import opened Host

  /**
   * What `parse` returns: the raw status token (`undefined` when the first
   * line has no space), the header map (a value is `undefined` when its line
   * has no `": "`), and the body.
   */
  datatype MockDefinition = MockDefinition(
    status: Option<string>,
    headers: map<string, Option<string>>,
    body: string)

  // ---------------------------------------------------------------------------
  // Lines
  // ---------------------------------------------------------------------------

  predicate EndsWithCR(s: string) {
    |s| > 0 && s[|s| - 1] == '\r'
  }

  function StripCR(s: string): string {
    if EndsWithCR(s) then s[..|s| - 1] else s
  }

  /** `content.split(/\r?\n/)`: a line feed, with a carriage return right before it, ends a line. */
  function SplitLines(s: string): (lines: seq<string>)
    ensures |lines| >= 1
    ensures forall k :: 0 <= k < |lines| ==> '\n' !in lines[k]
    decreases |s|
  {
    var i := IndexOf(s, "\n");
    if i < 0 then
      ContainsChar(s, '\n');
      [s]
    else
      NoOccurrenceBefore(s, "\n", i);
      ContainsChar(s[..i], '\n');
      [StripCR(s[..i])] + SplitLines(s[i + 1..])
  }

  /** The `line === '' || line === '\r'` test that ends the header section. */
  predicate IsBlank(line: string) {
    line == "" || line == "\r"
  }

  /** The index of the first blank line, or `|lines|` when there is none. */
  function FirstBlank(lines: seq<string>): (n: nat)
    ensures n <= |lines|
    ensures forall i :: 0 <= i < n ==> !IsBlank(lines[i])
    ensures n < |lines| ==> IsBlank(lines[n])
  {
    if |lines| == 0 then 0
    else if IsBlank(lines[0]) then 0
    else 1 + FirstBlank(lines[1..])
  }

  /** The header lines: those after the status line and before the first blank line. */
  function HeaderLines(lines: seq<string>): seq<string>
    requires |lines| >= 1
  {
    lines[1..][..FirstBlank(lines[1..])]
  }

  /** The body lines: those after the first blank line that follows the status line. */
  function BodyLines(lines: seq<string>): seq<string>
    requires |lines| >= 1
  {
    var rest := lines[1..];
    var n := FirstBlank(rest);
    if n < |rest| then rest[n + 1..] else []
  }

  // ---------------------------------------------------------------------------
  // Status line and header lines
  // ---------------------------------------------------------------------------

  /** `header.split(' ')[1]`: the token after the first space, if there is a space. */
  function ParseStatus(line: string): (r: Option<string>)
    ensures r.None? <==> ' ' !in line
    ensures r.Some? ==> ' ' !in r.value
  {
    ContainsChar(line, ' ');
    var parts := SplitOn(line, " ");
    SplitOnUnfold(line, " ");
    if |parts| > 1 then
      SplitOnPiecesFree(line, " ");
      ContainsChar(parts[1], ' ');
      Some(parts[1])
    else None
  }

  /** `parseValue`: a value with a line starting `#header` goes through the directive. */
  function ParseValue(host: Host, value: string): (r: string)
    ensures !HasLineStartingWith(value, "#header") ==> r == value
  {
    if HasLineStartingWith(value, "#header") then host.headerDirective(value) else value
  }

  /**
   * `parseHeader`: the key is the normalised text before the first `": "`,
   * the value the text between the first and the second `": "`.
   */
  function ParseHeader(host: Host, line: string): (h: (string, Option<string>))
    ensures !Contains(line, ": ") ==> h == (host.normalize(line), None)
  {
    var parts := SplitOn(line, ": ");
    (host.normalize(parts[0]), if |parts| > 1 then Some(ParseValue(host, parts[1])) else None)
  }

  function HeaderKey(host: Host, line: string): string {
    ParseHeader(host, line).0
  }

  /** No later line carries the same key as line `i`. */
  predicate LastOfKey(host: Host, lines: seq<string>, i: int)
    requires 0 <= i < |lines|
  {
    forall j :: i < j < |lines| ==> HeaderKey(host, lines[j]) != HeaderKey(host, lines[i])
  }

  /** The parsed header of each line, in order. */
  function Entries(host: Host, lines: seq<string>): (es: seq<(string, Option<string>)>)
    ensures |es| == |lines|
    ensures forall i :: 0 <= i < |lines| ==> es[i] == ParseHeader(host, lines[i])
  {
    seq(|lines|, i requires 0 <= i < |lines| => ParseHeader(host, lines[i]))
  }

  /** No later entry carries the key of entry `i`. */
  predicate LastEntry<V>(es: seq<(string, V)>, i: int)
    requires 0 <= i < |es|
  {
    forall j :: i < j < |es| ==> es[j].0 != es[i].0
  }

  /** The map built by setting the entries in order, each overwriting its key. */
  function BuildMap<V>(es: seq<(string, V)>): (m: map<string, V>)
    ensures m.Keys == set i | 0 <= i < |es| :: es[i].0
    ensures forall i :: 0 <= i < |es| && LastEntry(es, i) ==> m[es[i].0] == es[i].1
    decreases |es|
  {
    if |es| == 0 then map[]
    else
      var init := es[..|es| - 1];
      var e := es[|es| - 1];
      var m := BuildMap(init);
      KeysSnoc(es, init);
      BuildMapLast(es, init, m);
      m[e.0 := e.1]
  }

  /** The keys of all the entries are those of the earlier ones and the final one's. */
  lemma KeysSnoc<V>(es: seq<(string, V)>, init: seq<(string, V)>)
    requires |es| > 0 && init == es[..|es| - 1]
    ensures forall i :: 0 <= i < |init| ==> init[i] == es[i]
    ensures (set i | 0 <= i < |es| :: es[i].0) == (set i | 0 <= i < |init| :: init[i].0) + {es[|es| - 1].0}
  {
  }

  /** An entry that is the last with its key in all the entries is so among the earlier ones too, unless it is the final one. */
  lemma BuildMapLast<V>(es: seq<(string, V)>, init: seq<(string, V)>, m: map<string, V>)
    requires |es| > 0 && init == es[..|es| - 1]
    requires forall i :: 0 <= i < |init| ==> init[i].0 in m
    requires forall i :: 0 <= i < |init| && LastEntry(init, i) ==> m[init[i].0] == init[i].1
    ensures var e := es[|es| - 1];
            forall i :: 0 <= i < |es| && LastEntry(es, i) ==> m[e.0 := e.1][es[i].0] == es[i].1
  {
    var n := |es| - 1;
    var e := es[n];
    forall i | 0 <= i < |es| && LastEntry(es, i)
      ensures m[e.0 := e.1][es[i].0] == es[i].1
    {
      if i < n {
        assert es[n].0 != es[i].0;
        assert init[i] == es[i];
        assert LastEntry(init, i) by {
          forall j | i < j < |init|
            ensures init[j].0 != init[i].0
          {
            assert init[j] == es[j];
          }
        }
      }
    }
  }

  /**
   * The header map that header lines build when each line overwrites its
   * key: every key of a line is present, mapped to the value of the last
   * line with that key.
   */
  function HeaderMap(host: Host, lines: seq<string>): (m: map<string, Option<string>>)
    ensures m.Keys == set i | 0 <= i < |lines| :: HeaderKey(host, lines[i])
    ensures forall i :: 0 <= i < |lines| && LastOfKey(host, lines, i) ==>
              m[HeaderKey(host, lines[i])] == ParseHeader(host, lines[i]).1
  {
    var es := Entries(host, lines);
    assert forall i :: 0 <= i < |lines| ==> es[i].0 == HeaderKey(host, lines[i]);
    assert forall i :: 0 <= i < |lines| && LastOfKey(host, lines, i) ==> LastEntry(es, i);
    BuildMap(es)
  }

  /** The last line's header is set over the map of the earlier lines. */
  lemma HeaderMapSnoc(host: Host, lines: seq<string>)
    requires |lines| > 0
    ensures var h := ParseHeader(host, lines[|lines| - 1]);
            HeaderMap(host, lines) == HeaderMap(host, lines[..|lines| - 1])[h.0 := h.1]
  {
    var es := Entries(host, lines);
    assert es[..|es| - 1] == Entries(host, lines[..|lines| - 1]);
  }

  // ---------------------------------------------------------------------------
  // The line scan of `parse`
  // ---------------------------------------------------------------------------

  /** The variables the `forEach` over the lines updates. */
  datatype ScanState = ScanState(headerEnd: bool, headers: map<string, Option<string>>, bodyLines: seq<string>)

  const Initial := ScanState(false, map[], [])

  /** One turn of the `switch (true)` over a line. */
  function Step(host: Host, st: ScanState, line: string): (r: ScanState)
    ensures r.headerEnd <==> st.headerEnd || IsBlank(line)
    ensures st.headerEnd ==> r.headers == st.headers && r.bodyLines == st.bodyLines + [line]
    ensures !st.headerEnd ==> r.bodyLines == st.bodyLines
    ensures IsBlank(line) ==> r.headers == st.headers
    ensures !st.headerEnd && !IsBlank(line) ==>
              r.headers == st.headers[ParseHeader(host, line).0 := ParseHeader(host, line).1]
  {
    if st.headerEnd then st.(bodyLines := st.bodyLines + [line])
    else if IsBlank(line) then st.(headerEnd := true)
    else
      var h := ParseHeader(host, line);
      st.(headers := st.headers[h.0 := h.1])
  }

  /** The `forEach` over the lines after the first: body lines are only appended, and the header section never reopens. */
  function Scan(host: Host, st: ScanState, lines: seq<string>): (r: ScanState)
    ensures st.headerEnd ==> r.headerEnd
    ensures st.bodyLines <= r.bodyLines && |r.bodyLines| <= |st.bodyLines| + |lines|
    decreases |lines|
  {
    if |lines| == 0 then st else Scan(host, Step(host, st, lines[0]), lines[1..])
  }

  /** The `#import` step: applied only when some line of the body starts with `#import`. */
  function ImportStep(host: Host, file: string, body: string): string {
    if HasLineStartingWith(body, "#import") then host.importer(file, body) else body
  }

  /**
   * `parse(content, file)`: the status token of the first line, the header
   * map of the header lines, and the body lines joined with line feeds.
   */
  function Parse(host: Host, content: string, file: string): (r: MockDefinition)
    ensures r.status == ParseStatus(SplitLines(content)[0])
    ensures r.headers == HeaderMap(host, HeaderLines(SplitLines(content)))
    ensures var text := JoinWith(BodyLines(SplitLines(content)), "\n");
            && (!HasLineStartingWith(text, "#import") ==> r.body == text)
            && (HasLineStartingWith(text, "#import") ==> r.body == host.importer(file, text))
    ensures (forall i :: 1 <= i < |SplitLines(content)| ==> !IsBlank(SplitLines(content)[i])) ==> r.body == ""
  {
    var lines := SplitLines(content);
    var st := Scan(host, Initial, lines[1..]);
    ScanShape(host, lines[1..]);
    var text := JoinWith(st.bodyLines, "\n");
    MockDefinition(ParseStatus(lines[0]), st.headers, ImportStep(host, file, text))
  }

  // ---------------------------------------------------------------------------
  // Lemmas
  // ---------------------------------------------------------------------------

  lemma {:induction false} ScanAppend(host: Host, st: ScanState, a: seq<string>, b: seq<string>)
    ensures Scan(host, st, a + b) == Scan(host, Scan(host, st, a), b)
    decreases |a|
  {
    if |a| > 0 {
      assert (a + b)[1..] == a[1..] + b;
      ScanAppend(host, Step(host, st, a[0]), a[1..], b);
    } else {
      assert a + b == b;
    }
  }

  /** Once the blank line has been seen, every line goes to the body. */
  lemma {:induction false} ScanAfterEnd(host: Host, hs: map<string, Option<string>>, body: seq<string>, rest: seq<string>)
    ensures Scan(host, ScanState(true, hs, body), rest) == ScanState(true, hs, body + rest)
    decreases |rest|
  {
    if |rest| > 0 {
      ScanAfterEnd(host, hs, body + [rest[0]], rest[1..]);
      assert body + [rest[0]] + rest[1..] == body + rest;
    }
  }

  /** Over non-blank lines the scan builds exactly the header map and no body. */
  lemma {:induction false} ScanHeaders(host: Host, lines: seq<string>)
    requires forall i :: 0 <= i < |lines| ==> !IsBlank(lines[i])
    ensures Scan(host, Initial, lines) == ScanState(false, HeaderMap(host, lines), [])
    decreases |lines|
  {
    if |lines| > 0 {
      var init := lines[..|lines| - 1];
      var last := lines[|lines| - 1];
      assert lines == init + [last];
      ScanAppend(host, Initial, init, [last]);
      ScanHeaders(host, init);
      HeaderMapSnoc(host, lines);
    }
  }

  /** The scan splits the lines at the first blank one, which itself is dropped. */
  lemma ScanShape(host: Host, lines: seq<string>)
    ensures var n := FirstBlank(lines);
            var r := Scan(host, Initial, lines);
            && r.headers == HeaderMap(host, lines[..n])
            && r.bodyLines == (if n < |lines| then lines[n + 1..] else [])
  {
    ScanSplit(host, lines, FirstBlank(lines));
  }

  /** Header lines up to `n`, then nothing or a blank line and the rest: the header lines build the map and the rest is the body. */
  lemma ScanSplit(host: Host, lines: seq<string>, n: nat)
    requires n <= |lines|
    requires forall i :: 0 <= i < n ==> !IsBlank(lines[i])
    requires n < |lines| ==> IsBlank(lines[n])
    ensures Scan(host, Initial, lines)
         == ScanState(n < |lines|, HeaderMap(host, lines[..n]), if n < |lines| then lines[n + 1..] else [])
  {
    var head, tail := lines[..n], lines[n..];
    assert Scan(host, Initial, lines) == Scan(host, ScanState(false, HeaderMap(host, head), []), tail) by {
      assert head + tail == lines;
      ScanUpToBlank(host, head, tail);
    }
    if n < |lines| {
      ScanFromBlank(host, HeaderMap(host, head), tail);
      assert tail[1..] == lines[n + 1..];
    }
  }

  /** Header lines before the rest only build the header map. */
  lemma ScanUpToBlank(host: Host, head: seq<string>, tail: seq<string>)
    requires forall i :: 0 <= i < |head| ==> !IsBlank(head[i])
    ensures Scan(host, Initial, head + tail) == Scan(host, ScanState(false, HeaderMap(host, head), []), tail)
  {
    ScanHeaders(host, head);
    ScanAppend(host, Initial, head, tail);
  }

  /** From a blank line on, with no body yet, the header map stays as it is and the lines after the blank one are the body. */
  lemma ScanFromBlank(host: Host, hs: map<string, Option<string>>, rest: seq<string>)
    requires |rest| > 0 && IsBlank(rest[0])
    ensures Scan(host, ScanState(false, hs, []), rest) == ScanState(true, hs, rest[1..])
  {
    assert Step(host, ScanState(false, hs, []), rest[0]) == ScanState(true, hs, []);
    ScanAfterEnd(host, hs, [], rest[1..]);
    assert [] + rest[1..] == rest[1..];
  }

  /** The status is the second space-separated token of the first line. */
  lemma StatusIsSecondToken(protocol: string, code: string, rest: string)
    requires ' ' !in protocol && ' ' !in code
    requires rest == "" || rest[0] == ' '
    ensures ParseStatus(protocol + " " + code + rest) == Some(code)
  {
    var tail := code + rest;
    assert protocol + " " + code + rest == protocol + " " + tail;
    ContainsChar(protocol, ' ');
    SplitAfterFree(protocol, " ", tail);
    ContainsChar(code, ' ');
    if rest == "" {
      assert tail == code;
      SplitOnFree(code, " ");
    } else {
      assert tail == code + " " + rest[1..];
      SplitAfterFree(code, " ", rest[1..]);
    }
  }

  lemma StatusOfOkLine()
    ensures ParseStatus("HTTP/1.1 200 OK") == Some("200")
  {
    assert "HTTP/1.1 200 OK" == "HTTP/1.1" + " " + "200" + " OK";
    assert ' ' !in "HTTP/1.1" && ' ' !in "200";
    StatusIsSecondToken("HTTP/1.1", "200", " OK");
  }

  /**
   * A header line `key: value` (optionally followed by a further `": "` and
   * anything) gives the normalised key and the value, which is kept
   * verbatim unless one of its lines starts with `#header`.
   */
  lemma HeaderLine(host: Host, key: string, value: string, rest: string)
    requires !Contains(key, ": ") && !Contains(value, ": ")
    requires rest == "" || (|rest| >= 2 && rest[..2] == ": ")
    ensures ParseHeader(host, key + ": " + value + rest) == (host.normalize(key), Some(ParseValue(host, value)))
    ensures !HasLineStartingWith(value, "#header") ==> ParseHeader(host, key + ": " + value + rest).1 == Some(value)
  {
    var line := key + ": " + value + rest;
    IndexOfAfterFree(key, ": ", value + rest);
    assert line == key + ": " + (value + rest);
    assert line[|key| + 2..] == value + rest;
    assert line[..|key|] == key;
    if rest == "" {
      assert value + rest == value;
      SplitOnFree(value, ": ");
    } else {
      assert value + rest == value + ": " + rest[2..];
      IndexOfAfterFree(value, ": ", rest[2..]);
      assert (value + rest)[..|value|] == value;
      assert SplitOn(value + rest, ": ") == [value] + SplitOn(rest[2..], ": ");
    }
  }

  /** Without a carriage return before a line feed, joining the lines gives the text back. */
  lemma {:induction false} SplitLinesJoin(s: string)
    requires !Contains(s, "\r\n")
    ensures JoinWith(SplitLines(s), "\n") == s
    decreases |s|
  {
    var i := IndexOf(s, "\n");
    if i >= 0 {
      var rest := s[i + 1..];
      SplitLinesStep(s, i, s[..i], rest);
      NoCRBeforeLF(s, i);
      AbsentInSuffix(s, "\r\n", i + 1);
      SplitLinesJoin(rest);
      JoinWithCons(s[..i], SplitLines(rest), "\n");
      CutAround(s, "\n", i);
    }
  }

  /** In a text without `\r\n`, the text before a line feed does not end with a carriage return. */
  lemma NoCRBeforeLF(s: string, i: int)
    requires !Contains(s, "\r\n") && 0 <= i < |s| && s[i] == '\n'
    ensures !EndsWithCR(s[..i])
  {
    if i > 0 {
      assert !OccursAt(s, "\r\n", i - 1);
      assert s[i - 1..i + 1] == [s[i - 1], '\n'];
    }
  }

  lemma SplitLinesUnfold(s: string)
    ensures IndexOf(s, "\n") < 0 ==> SplitLines(s) == [s]
    ensures IndexOf(s, "\n") >= 0 ==>
              var i := IndexOf(s, "\n");
              SplitLines(s) == [StripCR(s[..i])] + SplitLines(s[i + 1..])
  {
  }

  /** A line feed, not preceded by a carriage return, joins the lines of both sides. */
  lemma {:induction false} SplitLinesConcat(a: string, b: string)
    requires !EndsWithCR(a)
    ensures SplitLines(a + "\n" + b) == SplitLines(a) + SplitLines(b)
    decreases |a|, 1
  {
    var s := a + "\n" + b;
    if IndexOf(a, "\n") >= 0 {
      SplitLinesConcatAfter(a, b);
    } else {
      assert IndexOf(s, "\n") == |a| by {
        IndexOfAfterFree(a, "\n", b);
      }
      assert s[|a| + 1..] == b;
      assert s[..|a|] == a;
      assert StripCR(a) == a;
      SplitLinesUnfold(s);
      SplitLinesUnfold(a);
    }
  }

  /** The case of `SplitLinesConcat` where `a` itself holds a line feed. */
  lemma {:induction false} SplitLinesConcatAfter(a: string, b: string)
    requires !EndsWithCR(a) && IndexOf(a, "\n") >= 0
    ensures SplitLines(a + "\n" + b) == SplitLines(a) + SplitLines(b)
    decreases |a|, 0
  {
    var j := IndexOf(a, "\n");
    var tail := a[j + 1..];
    var head := StripCR(a[..j]);
    assert SplitLines(a + "\n" + b) == [head] + SplitLines(tail + "\n" + b) by {
      SplitLinesCutInside(a, "\n" + b);
      assert a + "\n" + b == a + ("\n" + b);
      assert tail + ("\n" + b) == tail + "\n" + b;
    }
    assert SplitLines(a) == [head] + SplitLines(tail) by {
      SplitLinesUnfold(a);
    }
    assert !EndsWithCR(tail);
    SplitLinesConcat(tail, b);
    ConsAssoc(head, SplitLines(tail + "\n" + b), SplitLines(tail), SplitLines(b));
  }

  /** A carriage return and line feed end a line and the carriage return is dropped: the lines of both sides follow each other. */
  lemma {:induction false} SplitLinesCRLF(a: string, b: string)
    ensures SplitLines(a + "\r\n" + b) == SplitLines(a) + SplitLines(b)
    decreases |a|
  {
    if IndexOf(a, "\n") < 0 {
      SplitLinesCRLFLast(a, b);
    } else {
      var j := IndexOf(a, "\n");
      var tail := a[j + 1..];
      var head := StripCR(a[..j]);
      assert SplitLines(a + "\r\n" + b) == [head] + SplitLines(tail + "\r\n" + b) by {
        SplitLinesCutInside(a, "\r\n" + b);
        assert a + "\r\n" + b == a + ("\r\n" + b);
        assert tail + ("\r\n" + b) == tail + "\r\n" + b;
      }
      assert SplitLines(a) == [head] + SplitLines(tail) by {
        SplitLinesUnfold(a);
      }
      SplitLinesCRLF(tail, b);
      ConsAssoc(head, SplitLines(tail + "\r\n" + b), SplitLines(tail), SplitLines(b));
    }
  }

  /** The case of `SplitLinesCRLF` where `a` is a single line. */
  lemma SplitLinesCRLFLast(a: string, b: string)
    requires IndexOf(a, "\n") < 0
    ensures SplitLines(a + "\r\n" + b) == [a] + SplitLines(b)
    ensures SplitLines(a) == [a]
  {
    var a' := a + "\r";
    var s := a + "\r\n" + b;
    assert s == a' + "\n" + b;
    assert !Contains(a', "\n") by {
      ContainsChar(a, '\n');
      ContainsChar(a', '\n');
    }
    assert IndexOf(s, "\n") == |a'| by {
      IndexOfAfterFree(a', "\n", b);
    }
    assert s[..|a'|] == a' && s[|a'| + 1..] == b;
    assert StripCR(a') == a;
    SplitLinesStep(s, |a'|, a', b);
    SplitLinesUnfold(a);
  }

  /** When `a` holds a line feed, the lines of `a + t` are cut first where those of `a` are. */
  lemma SplitLinesCutInside(a: string, t: string)
    requires IndexOf(a, "\n") >= 0
    ensures var j := IndexOf(a, "\n");
            SplitLines(a + t) == [StripCR(a[..j])] + SplitLines(a[j + 1..] + t)
  {
    var s := a + t;
    var j := IndexOf(a, "\n");
    var rest := a[j + 1..] + t;
    assert IndexOf(s, "\n") == j by {
      IndexOfAppend(a, t, "\n");
    }
    assert s[..j] == a[..j] && s[j + 1..] == rest by {
      assert j < |a|;
    }
    SplitLinesStep(s, j, a[..j], rest);
  }

  /** A text whose first line feed is at `j` has the line before it, then the lines after it. */
  lemma SplitLinesStep(s: string, j: int, head: string, rest: string)
    requires IndexOf(s, "\n") == j >= 0
    requires s[..j] == head && s[j + 1..] == rest
    ensures SplitLines(s) == [StripCR(head)] + SplitLines(rest)
  {
    SplitLinesUnfold(s);
  }

  lemma {:induction false} SplitLinesOfJoin(lines: seq<string>)
    requires |lines| >= 1
    requires forall k :: 0 <= k < |lines| ==> '\n' !in lines[k]
    requires forall k :: 0 <= k < |lines| - 1 ==> !EndsWithCR(lines[k])
    ensures SplitLines(JoinWith(lines, "\n")) == lines
    decreases |lines|
  {
    ContainsChar(lines[0], '\n');
    if |lines| > 1 {
      SplitLinesConcat(lines[0], JoinWith(lines[1..], "\n"));
      SplitLinesOfJoin(lines[1..]);
    }
  }

  /** The mock file text of a status line, header lines and a body. */
  function Render(statusLine: string, headerLines: seq<string>, body: string): string {
    JoinWith([statusLine] + headerLines + [""], "\n") + "\n" + body
  }

  /** The lines of a rendered mock: status line, header lines, one blank line, then the body's lines. */
  lemma RenderLines(statusLine: string, headerLines: seq<string>, body: string)
    requires '\n' !in statusLine && '\r' !in statusLine
    requires forall k :: 0 <= k < |headerLines| ==> '\n' !in headerLines[k] && '\r' !in headerLines[k]
    ensures SplitLines(Render(statusLine, headerLines, body)) == [statusLine] + headerLines + [""] + SplitLines(body)
  {
    var front := [statusLine] + headerLines;
    var top := front + [""];
    var head := JoinWith(top, "\n");
    JoinWithAppend(front, [""], "\n");
    assert head == JoinWith(front, "\n") + "\n";
    assert !EndsWithCR(head);
    SplitLinesConcat(head, body);
    assert forall k :: 0 <= k < |top| - 1 ==> top[k] == front[k];
    SplitLinesOfJoin(top);
  }

  /**
   * Parsing a rendered mock gives back its parts: the status token of the
   * status line, the header map of the header lines, and the body verbatim,
   * interior blank lines and trailing line feeds included.
   */
  lemma RenderRoundTrip(host: Host, statusLine: string, headerLines: seq<string>, body: string, file: string)
    requires '\n' !in statusLine && '\r' !in statusLine
    requires forall k :: 0 <= k < |headerLines| ==>
               '\n' !in headerLines[k] && '\r' !in headerLines[k] && headerLines[k] != ""
    requires !Contains(body, "\r\n")
    requires !HasLineStartingWith(body, "#import")
    ensures Parse(host, Render(statusLine, headerLines, body), file)
         == MockDefinition(ParseStatus(statusLine), HeaderMap(host, headerLines), body)
  {
    RenderSections(statusLine, headerLines, body);
    SplitLinesJoin(body);
  }

  /** A rendered mock's status line, header section and body lines are the parts rendered. */
  lemma RenderSections(statusLine: string, headerLines: seq<string>, body: string)
    requires '\n' !in statusLine && '\r' !in statusLine
    requires forall k :: 0 <= k < |headerLines| ==>
               '\n' !in headerLines[k] && '\r' !in headerLines[k] && headerLines[k] != ""
    ensures var lines := SplitLines(Render(statusLine, headerLines, body));
            && lines[0] == statusLine
            && HeaderLines(lines) == headerLines
            && BodyLines(lines) == SplitLines(body)
  {
    RenderLines(statusLine, headerLines, body);
    Sections(SplitLines(Render(statusLine, headerLines, body)), statusLine, headerLines, SplitLines(body));
  }

  /** Lines made of a status line, non-blank header lines, a blank line and body lines split back into those parts. */
  lemma Sections(lines: seq<string>, statusLine: string, headerLines: seq<string>, bodyLines: seq<string>)
    requires lines == [statusLine] + headerLines + [""] + bodyLines
    requires forall k :: 0 <= k < |headerLines| ==> '\r' !in headerLines[k] && headerLines[k] != ""
    ensures lines[0] == statusLine && HeaderLines(lines) == headerLines && BodyLines(lines) == bodyLines
  {
    var rest := lines[1..];
    assert rest == headerLines + [""] + bodyLines;
    assert FirstBlank(rest) == |headerLines| by {
      assert rest[|headerLines|] == "";
      assert forall i :: 0 <= i < |headerLines| ==> rest[i] == headerLines[i] && !IsBlank(rest[i]);
    }
  }
}

=== FILE: monad.dfy ===
/**
 * The identity monad of monad.js: `Monad.of` wraps a value, `map` applies a
 * function inside the wrapper, `join` unwraps, and `chain` maps then unwraps.
 */
module Monad {

  datatype Monad<T> = Monad(value: T)
  {
    /** `m.map(f)`: `Monad.of(f(value))`. */
    function Map<U>(f: T -> U): (m: Monad<U>)
      ensures m.Join() == f(value)
    {
      Of(f(value))
    }

    /** `m.join()`: the wrapped value. */
    function Join(): T
    {
      value
    }

    /** `m.chain(f)`: `map(f).join()`, so `f` returns the wrapped result itself. */
    function Chain<U>(f: T -> U): (u: U)
      ensures u == f(Join())
    {
      Map(f).Join()
    }
  }

  /** `Monad.of(val)`: a new wrapper around `val`. */
  function Of<T>(v: T): (m: Monad<T>)
    ensures m.Join() == v
  {
    Monad(v)
  }

  /** Mapping the identity changes nothing. */
  lemma MapIdentity<T>(m: Monad<T>)
    ensures m.Map(x => x) == m
  {
  }

  /** Mapping a composition is mapping one function and then the other. */
  lemma MapComposition<T, U, V>(m: Monad<T>, f: T -> U, g: U -> V)
    ensures m.Map(x => g(f(x))) == m.Map(f).Map(g)
  {
  }

  /** Left identity: chaining a function onto `of(v)` applies it to `v`. */
  lemma LeftIdentity<T, U>(v: T, f: T -> Monad<U>)
    ensures Of(v).Chain(f) == f(v)
  {
  }

  /** Right identity: chaining `of` gives the wrapper back. */
  lemma RightIdentity<T>(m: Monad<T>)
    ensures m.Chain(Of) == m
  {
  }

  /** Associativity: chaining `f` then `g` is chaining their composite. */
  lemma Associativity<T, U, V>(m: Monad<T>, f: T -> Monad<U>, g: U -> Monad<V>)
    ensures m.Chain(f).Chain(g) == m.Chain(x => f(x).Chain(g))
  {
  }

  /** `join` inverts `of`, and `of` inverts `join`. */
  lemma OfJoin<T>(v: T, m: Monad<T>)
    ensures Of(v).Join() == v
    ensures Of(m.Join()) == m
  {
  }
}

=== FILE: resolution.dfy ===
/**
 * Request resolution (`getBodyOrQueryString`, `getMockedContent`,
 * `getContentFromPermutations` and `handle` in mockserver.js): from a
 * request to the mock file that answers it, or to `404 Not Mocked`.
 *
 * The mock directory is a map from a file's path relative to that directory
 * (segments joined by `/`) to its UTF-8 content; the directories with a `__`
 * segment are listed separately, in the order the server's listing leaves them.
 */
module Resolution {
  import opened Wrappers
  import opened Text
  import opened Host
  import opened MockFile
  import opened Wildcard
  import opened Candidates

  datatype Request = Request(url: string, verb: string, headers: map<string, string>, body: string)

  datatype Config = Config(
    /** The mock files, keyed by their path relative to the mock directory. */
    store: map<string, string>,
    /** The directories with a `__` segment, relative to the mock directory. */
    wildcardDirs: seq<string>,
    /** The result of `prepareWatchedHeaders`. */
    watched: seq<string>
  )

  const NotMockedStatus := "404"
  const NotMockedBody := "Not Mocked"

  /** What `handle` writes: a parsed mock file, or `writeHead(404)` and `end('Not Mocked')`. */
  datatype Reply = Mocked(mock: MockDefinition) | NotMocked
  {
    /** The status passed to `writeHead`: the mock's status token, or 404. */
    function Status(): Option<string> {
      if Mocked? then mock.status else Some(NotMockedStatus)
    }

    /** The text passed to `end`. */
    function Body(): string {
      if Mocked? then mock.body else NotMockedBody
    }
  }

  /**
   * The path and the query of a URL: the query is everything after the first
   * `?` with every `?` deleted; the path stops before that `?`, except that a
   * URL starting with `?` keeps the whole URL as its path.
   */
  function SplitUrl(url: string): (r: (string, string))
    ensures '?' !in r.1
    ensures '?' !in url ==> r == (url, "")
    ensures |url| > 0 && url[0] == '?' ==> r == (url, Without(url, '?'))
    ensures '?' in url && url[0] != '?' ==>
              var n := |r.0|;
              && n < |url| && url[..n] == r.0 && url[n] == '?' && '?' !in r.0
              && r.1 == Without(url[n..], '?')
  {
    var i := IndexOf(url, "?");
    ContainsChar(url, '?');
    if i < 0 then (url, "")
    else
      assert url[i..i + 1] == "?";
      assert forall j :: 0 <= j < i ==> url[j] != '?' by {
        forall j | 0 <= j < i
          ensures url[j] != '?'
        {
          assert !OccursAt(url, "?", j);
          assert url[j..j + 1] == [url[j]];
        }
      }
      var query := Without(url[i..], '?');
      if i > 0 then (url[..i], query) else (url, query)
  }

  /**
   * `getBodyOrQueryString(body, query) || ''`: `--query` when there is a
   * query, else `--body` when there is a body, else nothing.
   */
  function BodyOrQuerySuffix(body: string, query: string): (r: string)
    ensures r == "" <==> body == "" && query == ""
    ensures query != "" ==> r == "--" + query
    ensures query == "" ==> r == (if body == "" then "" else "--" + body)
  {
    if query != "" then "--" + query
    else if body != "" then "--" + body
    else ""
  }

  /**
   * The suffix can be read back: after its `--` it carries the query when
   * there is one and the body otherwise, so two requests share a suffix only
   * when they carry the same text.
   */
  lemma BodyOrQuerySuffixDecodes(body: string, query: string, body': string, query': string)
    ensures var r := BodyOrQuerySuffix(body, query);
            r != "" ==> |r| >= 2 && r[..2] == "--" && r[2..] == (if query != "" then query else body)
    ensures BodyOrQuerySuffix(body, query) == BodyOrQuerySuffix(body', query') ==>
              (if query != "" then query else body) == (if query' != "" then query' else body')
  {
  }


  /** `join(mockserver.directory, path, name)`, relative to the mock directory: empty segments collapse. */
  function FileKey(path: string, name: string): string {
    JoinWith(RemoveBlanks(SplitOn(path + "/" + name, "/")), "/")
  }

  lemma SplitSlash(a: string, b: string)
    ensures SplitOn(a + "/" + b, "/") == SplitOn(a, "/") + SplitOn(b, "/")
  {
    assert a + "/" + b == a + ['/'] + b;
    SplitOnConcat(a, '/', b);
  }

  /** A trailing slash adds one empty piece to the split. */
  lemma SplitTrailingSlash(path: string)
    ensures SplitOn(path + "/", "/") == SplitOn(path, "/") + [""]
  {
    SplitSlash(path, "");
    assert path + "/" + "" == path + "/";
    assert SplitOn("", "/") == [""];
  }

  /** An empty piece between two runs of pieces is filtered out. */
  lemma RemoveBlanksDropBlank(p: seq<string>, n: seq<string>)
    ensures RemoveBlanks(p + [""] + n) == RemoveBlanks(p + n)
  {
    RemoveBlanksAppend(p + [""], n);
    RemoveBlanksAppend(p, [""]);
    RemoveBlanksAppend(p, n);
    assert RemoveBlanks([""]) == [];
    assert RemoveBlanks(p) + [] == RemoveBlanks(p);
  }

  /**
   * The segments of a file key are the non-empty segments of the directory
   * followed by those of the name: `join` drops empty segments and adds none.
   */
  lemma FileKeySegments(path: string, name: string)
    ensures var segs := RemoveBlanks(SplitOn(path, "/")) + RemoveBlanks(SplitOn(name, "/"));
            && (|segs| == 0 ==> FileKey(path, name) == "")
            && (|segs| > 0 ==> SplitOn(FileKey(path, name), "/") == segs)
  {
    var whole := SplitOn(path + "/" + name, "/");
    var segs := RemoveBlanks(SplitOn(path, "/")) + RemoveBlanks(SplitOn(name, "/"));
    SplitSlash(path, name);
    RemoveBlanksAppend(SplitOn(path, "/"), SplitOn(name, "/"));
    assert RemoveBlanks(whole) == segs;
    if |segs| > 0 {
      SplitOnPiecesFree(path + "/" + name, "/");
      forall k | 0 <= k < |segs|
        ensures '/' !in segs[k]
      {
        assert segs[k] in whole;
        ContainsChar(segs[k], '/');
      }
      SplitJoin(segs, '/');
    }
  }

  /** A trailing slash on the directory does not change the file addressed. */
  lemma FileKeyTrailingSlash(path: string, name: string)
    ensures FileKey(path + "/", name) == FileKey(path, name)
  {
    var p := SplitOn(path, "/");
    var n := SplitOn(name, "/");
    SplitTrailingSlash(path);
    SplitSlash(path + "/", name);
    SplitSlash(path, name);
    RemoveBlanksDropBlank(p, n);
  }

  /**
   * The file names `getMockedContent` tries, in order: the one carrying the
   * body or query, then (only when there is a body or query) the plain one.
   */
  function ProbeNames(prefix: string, body: string, query: string): (r: seq<string>)
    ensures 1 <= |r| <= 2 && r[|r| - 1] == prefix + ".mock"
    ensures |r| == 2 <==> body != "" || query != ""
    ensures |r| == 2 ==> r[0] == prefix + BodyOrQuerySuffix(body, query) + ".mock" && r[0] != r[1]
  {
    if body == "" && query == "" then [prefix + ".mock"]
    else [prefix + BodyOrQuerySuffix(body, query) + ".mock", prefix + ".mock"]
  }

  /** The content of the first of `names` that exists under `path`, if any. */
  function FirstStored(store: map<string, string>, path: string, names: seq<string>): (r: Option<string>)
    ensures r.None? <==> forall k :: 0 <= k < |names| ==> FileKey(path, names[k]) !in store
    ensures forall k :: && 0 <= k < |names| && FileKey(path, names[k]) in store
                        && (forall j :: 0 <= j < k ==> FileKey(path, names[j]) !in store)
                        ==> r == Some(store[FileKey(path, names[k])])
  {
    if |names| == 0 then None
    else if FileKey(path, names[0]) in store then Some(store[FileKey(path, names[0])])
    else
      assert forall k :: 1 <= k < |names| ==> names[1..][k - 1] == names[k];
      FirstStored(store, path, names[1..])
  }

  /**
   * `getMockedContent(path, prefix, body, query)`: reads the file named after
   * the prefix and the body or query, and on a failed read retries once with
   * neither. A file that exists but is empty is returned as it is.
   */
  function GetMockedContent(store: map<string, string>, path: string, prefix: string, body: string, query: string): (r: Option<string>)
    ensures r.Some? ==> r.value in store.Values
    decreases |body| + |query|
  {
    var name := prefix + BodyOrQuerySuffix(body, query) + ".mock";
    var key := FileKey(path, name);
    if key in store then Some(store[key])
    else if body != "" || query != "" then GetMockedContent(store, path, prefix, "", "")
    else None
  }

  /** `getMockedContent` returns the content of the first of its probe names that exists. */
  lemma GetMockedContentProbes(store: map<string, string>, path: string, prefix: string, body: string, query: string)
    ensures GetMockedContent(store, path, prefix, body, query) == FirstStored(store, path, ProbeNames(prefix, body, query))
  {
    var plain := prefix + ".mock";
    assert prefix + BodyOrQuerySuffix("", "") + ".mock" == plain;
    assert [plain][1..] == [];
    assert FirstStored(store, path, [plain])
        == if FileKey(path, plain) in store then Some(store[FileKey(path, plain)]) else None;
    assert GetMockedContent(store, path, prefix, "", "")
        == if FileKey(path, plain) in store then Some(store[FileKey(path, plain)]) else None;
    if body != "" || query != "" {
      var names := ProbeNames(prefix, body, query);
      var first := prefix + BodyOrQuerySuffix(body, query) + ".mock";
      assert names == [first, plain];
      assert names[1..] == [plain];
      assert FirstStored(store, path, names)
          == if FileKey(path, first) in store then Some(store[FileKey(path, first)])
             else FirstStored(store, path, [plain]);
      assert GetMockedContent(store, path, prefix, body, query)
          == if FileKey(path, first) in store then Some(store[FileKey(path, first)])
             else GetMockedContent(store, path, prefix, "", "");
    }
  }

  /** `method + permutation.join('')`: the file-name prefix of one candidate. */
  function Prefix(verb: string, arrangement: seq<string>): string {
    verb + JoinWith(arrangement, "")
  }

  /** JavaScript truthiness of a file content: read, and not empty. */
  predicate Truthy(content: Option<string>) {
    content.Some? && content.value != ""
  }

  /** Where and with what the candidates are looked up. */
  datatype Search = Search(store: map<string, string>, path: string, verb: string, body: string, query: string)

  /** `getMockedContent(path, prefix, body, query)` for the path, body and query of a search. */
  function Lookup(s: Search): string -> Option<string> {
    prefix => GetMockedContent(s.store, s.path, prefix, s.body, s.query)
  }

  /** The content found for one candidate. */
  function ContentOf(s: Search, arrangement: seq<string>): Option<string> {
    Lookup(s)(Prefix(s.verb, arrangement))
  }

  /** Candidate `i` is the first one whose content is truthy. */
  predicate FirstHitIn(lookup: string -> Option<string>, verb: string, candidates: seq<seq<string>>, i: int) {
    && 0 <= i < |candidates|
    && Truthy(lookup(Prefix(verb, candidates[i])))
    && forall j :: 0 <= j < i ==> !Truthy(lookup(Prefix(verb, candidates[j])))
  }

  predicate NoHitIn(lookup: string -> Option<string>, verb: string, candidates: seq<seq<string>>) {
    forall j :: 0 <= j < |candidates| ==> !Truthy(lookup(Prefix(verb, candidates[j])))
  }

  predicate FirstHit(s: Search, candidates: seq<seq<string>>, i: int) {
    FirstHitIn(Lookup(s), s.verb, candidates, i)
  }

  predicate NoHit(s: Search, candidates: seq<seq<string>>) {
    NoHitIn(Lookup(s), s.verb, candidates)
  }

  /** The result of `getContentFromPermutations`: the content found, and the last prefix tried. */
  datatype Matched = Matched(content: Option<string>, prefix: Option<string>)

  /**
   * The `while (permutations.length)` loop: pops the last candidate, looks it
   * up, and keeps `found || content`, so a truthy earlier candidate
   * overrides what a later one found; every candidate is looked up.
   */
  function PermutationLoop(lookup: string -> Option<string>, verb: string, candidates: seq<seq<string>>, acc: Matched): (r: Matched)
    ensures NoHitIn(lookup, verb, candidates) ==> r.content == acc.content
    ensures !NoHitIn(lookup, verb, candidates) ==> Truthy(r.content)
    ensures forall i :: FirstHitIn(lookup, verb, candidates, i) ==> r.content == lookup(Prefix(verb, candidates[i]))
    ensures |candidates| == 0 ==> r.prefix == acc.prefix
    ensures |candidates| > 0 ==> r.prefix == Some(Prefix(verb, candidates[0]))
    decreases |candidates|
  {
    if |candidates| == 0 then acc
    else
      var rest := candidates[..|candidates| - 1];
      var prefix := Prefix(verb, candidates[|candidates| - 1]);
      var found := lookup(prefix);
      assert forall k :: 0 <= k < |rest| ==> rest[k] == candidates[k];
      PermutationLoop(lookup, verb, rest, Matched(if Truthy(found) then found else acc.content, Some(prefix)))
  }

  /**
   * `getContentFromPermutations`: the content of the first candidate (the most
   * specific one) that has a non-empty mock file, and the prefix of the first
   * candidate, whether or not that one matched.
   */
  function GetContentFromPermutations(s: Search, candidates: seq<seq<string>>): (r: Matched)
    ensures r.content.None? <==> NoHit(s, candidates)
    ensures r.content.Some? ==> Truthy(r.content)
    ensures forall i :: FirstHit(s, candidates, i) ==> r.content == ContentOf(s, candidates[i])
    ensures |candidates| > 0 ==> r.prefix == Some(Prefix(s.verb, candidates[0]))
  {
    PermutationLoop(Lookup(s), s.verb, candidates, Matched(None, None))
  }

  /** The candidate prefixes of a request, most specific first. */
  function CandidateList(host: Host, config: Config, req: Request): (r: seq<seq<string>>)
    ensures |r| >= 1
  {
    Arrangements(host, HeaderFragments(host, config.watched, req.headers))
  }

  /** The lookup of the request at the path its URL names. */
  function ExactSearch(host: Host, config: Config, req: Request): (r: Search)
    ensures r.store == config.store && r.verb == host.upper(req.verb) && r.body == req.body
    ensures '?' !in r.query
    ensures '?' !in req.url ==> r.path == req.url && r.query == ""
  {
    var (path, query) := SplitUrl(req.url);
    Search(config.store, path, host.upper(req.verb), req.body, query)
  }

  /** A mock file found for a request: its content and its path relative to the mock directory. */
  datatype Hit = Hit(content: string, file: string)

  /**
   * The lookup half of `handle(req, res)` for given candidates and wildcard
   * path: the candidates are looked up with `exact`; when none matches, at
   * the wildcard path, if any. The file is named after the first candidate,
   * whichever one matched.
   */
  function ResolveIn(exact: Search, candidates: seq<seq<string>>, wild: Option<string>): (r: Option<Hit>)
    requires |candidates| >= 1
    ensures r.None? <==> NoHit(exact, candidates) && (wild.None? || NoHit(exact.(path := wild.value), candidates))
    ensures forall i :: FirstHit(exact, candidates, i) ==>
              r == Some(Hit(ContentOf(exact, candidates[i]).value, FileKey(exact.path, Prefix(exact.verb, candidates[0]))))
    ensures NoHit(exact, candidates) && wild.Some? ==>
              forall i :: FirstHit(exact.(path := wild.value), candidates, i) ==>
                r == Some(Hit(ContentOf(exact.(path := wild.value), candidates[i]).value,
                              FileKey(wild.value, Prefix(exact.verb, candidates[0]))))
    ensures r.Some? ==> r.value.content != ""
  {
    var matched := GetContentFromPermutations(exact, candidates);
    if matched.content.Some? then
      Some(Hit(matched.content.value, FileKey(exact.path, matched.prefix.value)))
    else
      match wild
      case None => None
      case Some(path) =>
        var matched' := GetContentFromPermutations(exact.(path := path), candidates);
        if matched'.content.Some? then
          Some(Hit(matched'.content.value, FileKey(path, matched'.prefix.value)))
        else None
  }

  /** `handle(req, res)`'s lookup for a request: its search, candidates and wildcard path. */
  function Resolve(host: Host, config: Config, req: Request): (r: Option<Hit>)
    ensures var exact := ExactSearch(host, config, req);
            var candidates := CandidateList(host, config, req);
            var wild := GetWildcardPath(exact.path, config.wildcardDirs);
            r.None? <==> NoHit(exact, candidates) && (wild.None? || NoHit(exact.(path := wild.value), candidates))
    ensures var exact := ExactSearch(host, config, req);
            var candidates := CandidateList(host, config, req);
            forall i :: FirstHit(exact, candidates, i) ==>
              r == Some(Hit(ContentOf(exact, candidates[i]).value, FileKey(exact.path, Prefix(exact.verb, candidates[0]))))
    ensures var exact := ExactSearch(host, config, req);
            var candidates := CandidateList(host, config, req);
            var wild := GetWildcardPath(exact.path, config.wildcardDirs);
            NoHit(exact, candidates) && wild.Some? ==>
              forall i :: FirstHit(exact.(path := wild.value), candidates, i) ==>
                r == Some(Hit(ContentOf(exact.(path := wild.value), candidates[i]).value,
                              FileKey(wild.value, Prefix(exact.verb, candidates[0]))))
    ensures r.Some? ==> r.value.content != ""
  {
    var exact := ExactSearch(host, config, req);
    ResolveIn(exact, CandidateList(host, config, req), GetWildcardPath(exact.path, config.wildcardDirs))
  }

  /** The hit of the first matching candidate at the URL's own path. */
  lemma ResolveFirstHit(host: Host, config: Config, req: Request, i: int)
    requires FirstHit(ExactSearch(host, config, req), CandidateList(host, config, req), i)
    ensures var exact := ExactSearch(host, config, req);
            var candidates := CandidateList(host, config, req);
            Resolve(host, config, req)
            == Some(Hit(ContentOf(exact, candidates[i]).value, FileKey(exact.path, Prefix(exact.verb, candidates[0]))))
  {
  }

  /**
   * `handle(req, res)` once the body is read: the mock file found is parsed
   * into the response; without one the answer is `404 Not Mocked`.
   */
  function Handle(host: Host, config: Config, req: Request): (r: Reply)
    ensures r.NotMocked? <==> Resolve(host, config, req).None?
    ensures r.NotMocked? ==> r.Status() == Some("404") && r.Body() == "Not Mocked"
    ensures r.Mocked? ==>
              var hit := Resolve(host, config, req).value;
              var lines := SplitLines(hit.content);
              var text := JoinWith(BodyLines(lines), "\n");
              && r.Status() == ParseStatus(lines[0])
              && r.mock.headers == HeaderMap(host, HeaderLines(lines))
              && (!HasLineStartingWith(text, "#import") ==> r.Body() == text)
              && (HasLineStartingWith(text, "#import") ==> r.Body() == host.importer(hit.file, text))
  {
    match Resolve(host, config, req)
    case None => NotMocked
    case Some(hit) => Mocked(Parse(host, hit.content, hit.file))
  }

  // ---------------------------------------------------------------------------
  // Properties of the whole lookup
  // ---------------------------------------------------------------------------

  /** Without a watched header in the request, the bare method is the only candidate. */
  lemma BareMethodOnly(host: Host, config: Config, req: Request)
    requires forall i :: 0 <= i < |config.watched| ==> !Present(host, req.headers, config.watched[i])
    ensures CandidateList(host, config, req) == [[]]
    ensures var exact := ExactSearch(host, config, req);
            ContentOf(exact, []) == GetMockedContent(config.store, exact.path, host.upper(req.verb), req.body, exact.query)
  {
    var verb := host.upper(req.verb);
    assert Prefix(verb, []) == verb + "" == verb;
  }

  /** Two lookups that agree on every candidate give the loop the same result. */
  lemma {:induction false} LoopSameLookups(l1: string -> Option<string>, l2: string -> Option<string>, verb: string,
                                           candidates: seq<seq<string>>, acc: Matched)
    requires forall i :: 0 <= i < |candidates| ==> l1(Prefix(verb, candidates[i])) == l2(Prefix(verb, candidates[i]))
    ensures PermutationLoop(l1, verb, candidates, acc) == PermutationLoop(l2, verb, candidates, acc)
    decreases |candidates|
  {
    if |candidates| > 0 {
      var rest := candidates[..|candidates| - 1];
      var prefix := Prefix(verb, candidates[|candidates| - 1]);
      var found := l1(prefix);
      assert forall k :: 0 <= k < |rest| ==> rest[k] == candidates[k];
      LoopSameLookups(l1, l2, verb, rest, Matched(if Truthy(found) then found else acc.content, Some(prefix)));
    }
  }

  lemma GetMockedContentTrailingSlash(store: map<string, string>, path: string, prefix: string, body: string, query: string)
    ensures GetMockedContent(store, path + "/", prefix, body, query) == GetMockedContent(store, path, prefix, body, query)
  {
    FileKeyTrailingSlash(path, prefix + BodyOrQuerySuffix(body, query) + ".mock");
    FileKeyTrailingSlash(path, prefix + BodyOrQuerySuffix("", "") + ".mock");
  }

  /** A trailing slash on the searched path changes nothing found. */
  lemma SearchTrailingSlash(s: Search, candidates: seq<seq<string>>)
    ensures GetContentFromPermutations(s.(path := s.path + "/"), candidates).content
            == GetContentFromPermutations(s, candidates).content
  {
    var s' := s.(path := s.path + "/");
    forall i | 0 <= i < |candidates|
      ensures Lookup(s')(Prefix(s.verb, candidates[i])) == Lookup(s)(Prefix(s.verb, candidates[i]))
    {
      GetMockedContentTrailingSlash(s.store, s.path, Prefix(s.verb, candidates[i]), s.body, s.query);
    }
    LoopSameLookups(Lookup(s'), Lookup(s), s.verb, candidates, Matched(None, None));
  }

  /** A trailing slash on a URL without a query only adds the slash to the searched path. */
  lemma ExactSearchTrailingSlash(host: Host, config: Config, req: Request, url: string)
    requires '?' !in url
    ensures ExactSearch(host, config, req.(url := url)).path == url
    ensures ExactSearch(host, config, req.(url := url + "/"))
            == ExactSearch(host, config, req.(url := url)).(path := url + "/")
  {
    assert '?' !in url + "/";
  }

  /** A trailing slash on a URL without a query resolves to the same file with the same content. */
  lemma ResolveTrailingSlash(host: Host, config: Config, req: Request, url: string)
    requires '?' !in url
    ensures Resolve(host, config, req.(url := url + "/")) == Resolve(host, config, req.(url := url))
  {
    var slashed := req.(url := url + "/");
    var plain := req.(url := url);
    var exact := ExactSearch(host, config, plain);
    ExactSearchTrailingSlash(host, config, req, url);
    var candidates := CandidateList(host, config, plain);
    assert CandidateList(host, config, slashed) == candidates;
    SearchTrailingSlash(exact, candidates);
    GetWildcardPathTrailingSlash(url, config.wildcardDirs);
    FileKeyTrailingSlash(url, Prefix(exact.verb, candidates[0]));
  }

  /**
   * A trailing slash on a URL without a query is answered with the same mock
   * file, parsed the same way.
   */
  lemma HandleTrailingSlash(host: Host, config: Config, req: Request, url: string)
    requires '?' !in url
    ensures Handle(host, config, req.(url := url + "/")) == Handle(host, config, req.(url := url))
  {
    ResolveTrailingSlash(host, config, req, url);
  }
}

=== FILE: scenarios.dfy ===
/**
 * Concrete requests against a small mock directory, following the cases of
 * the repository's test suite (test/mockserver.js): `GET /test`, the same
 * with a trailing slash and with an unmatched query, a missing mock, and
 * wildcard directories.
 */
module Scenarios {
  import opened Wrappers
  import opened Text
  import opened Host
  import opened MockFile
  import opened Wildcard
  import opened Resolution

  const StatusLine := "HTTP/1.1 200 OK"
  const HeaderLine := "Content-Type: text"

  /** `test/GET.mock`: a 200 with one header and the body `Welcome!`. */
  const Welcome := Render(StatusLine, [HeaderLine], "Welcome!")

  function Get(url: string): Request {
    Request(url, "GET", map[], "")
  }

  /** The file key of a path and a name whose joined segments are `parts`. */
  lemma KeyOfSegments(path: string, name: string, parts: seq<string>)
    requires |parts| >= 1
    requires forall k :: 0 <= k < |parts| ==> '/' !in parts[k]
    requires path + "/" + name == JoinWith(parts, "/")
    ensures FileKey(path, name) == JoinWith(RemoveBlanks(parts), "/")
  {
    SplitJoin(parts, '/');
  }

  /** `join(dir, '/<segment>', name)`: a one-segment URL path keys the file under that directory. */
  lemma RootKey(segment: string, name: string)
    requires segment != "" && '/' !in segment && name != "" && '/' !in name
    ensures FileKey("/" + segment, name) == segment + "/" + name
  {
    var parts := ["", segment, name];
    assert parts[1..] == [segment, name] && parts[1..][1..] == [name];
    assert JoinWith(parts[1..], "/") == segment + "/" + name by {
      assert JoinWith([name], "/") == name;
    }
    assert JoinWith(parts, "/") == "/" + segment + "/" + name;
    KeyOfSegments("/" + segment, name, parts);
    assert RemoveBlanks(parts) == [segment, name] by {
      assert parts[1..][1..][1..] == [];
      assert RemoveBlanks([name]) == [name];
    }
  }

  /** The `GET.mock` file of a one-segment URL path lies in that segment's directory. */
  lemma GetMockKey(segment: string, path: string)
    requires segment != "" && '/' !in segment && path == "/" + segment
    ensures FileKey(path, "GET.mock") == segment + "/GET.mock"
  {
    RootKey(segment, "GET.mock");
    assert segment + "/" + "GET.mock" == segment + "/GET.mock";
  }

  /** The parsed form of a rendered mock with the `200 OK` status line. */
  lemma ParsedOk(host: Host, headerLines: seq<string>, body: string, file: string)
    requires forall k :: 0 <= k < |headerLines| ==>
               '\n' !in headerLines[k] && '\r' !in headerLines[k] && headerLines[k] != ""
    requires '\r' !in body && '#' !in body
    ensures Parse(host, Render(StatusLine, headerLines, body), file)
         == MockDefinition(Some("200"), HeaderMap(host, headerLines), body)
  {
    FirstCharAbsent(body, "\r\n");
    NoLineStartsWith(body, "#import");
    RenderRoundTrip(host, StatusLine, headerLines, body, file);
    StatusOfOkLine();
  }

  lemma WelcomeHeaders(host: Host)
    ensures HeaderMap(host, [HeaderLine]) == map[host.normalize("Content-Type") := Some("text")]
  {
    assert HeaderLine == "Content-Type" + ": " + "text" + "";
    FirstCharAbsent("Content-Type", ": ");
    FirstCharAbsent("text", ": ");
    NoLineStartsWith("text", "#header");
    MockFile.HeaderLine(host, "Content-Type", "text", "");
    assert [HeaderLine][..0] == [];
  }

  lemma WelcomeParsed(host: Host, file: string)
    ensures Parse(host, Welcome, file)
         == MockDefinition(Some("200"), map[host.normalize("Content-Type") := Some("text")], "Welcome!")
  {
    assert '\n' !in HeaderLine && '\r' !in HeaderLine;
    ParsedOk(host, [HeaderLine], "Welcome!", file);
    WelcomeHeaders(host);
  }

  /** A `GET` of a URL without a query, when no header is watched. */
  lemma PlainGet(host: Host, config: Config, url: string)
    requires host.upper("GET") == "GET" && config.watched == [] && '?' !in url
    ensures ExactSearch(host, config, Get(url)) == Search(config.store, url, "GET", "", "")
    ensures CandidateList(host, config, Get(url)) == [[]]
    ensures ContentOf(Search(config.store, url, "GET", "", ""), []) == GetMockedContent(config.store, url, "GET", "", "")
  {
    assert Prefix("GET", []) == "GET" + "" == "GET";
  }

  /** The mock directory holds `test/GET.mock` with the welcome mock, and no header is watched. */
  predicate HasWelcome(config: Config) {
    && config.watched == []
    && "test/GET.mock" in config.store
    && config.store["test/GET.mock"] == Welcome
  }

  /** `test/GET.mock` holds the welcome mock, the first candidate's content. */
  lemma TestContent(config: Config)
    requires HasWelcome(config)
    ensures var exact := Search(config.store, "/test", "GET", "", "");
            ContentOf(exact, []) == Some(Welcome) && FirstHit(exact, [[]], 0)
  {
    var exact := Search(config.store, "/test", "GET", "", "");
    assert Prefix("GET", []) == "GET" + "" == "GET";
    assert "GET" + BodyOrQuerySuffix("", "") + ".mock" == "GET.mock";
    GetMockKey("test", "/test");
    assert "test" + "/GET.mock" == "test/GET.mock";
    assert Welcome != "";
  }

  /** `GET /test` finds `test/GET.mock` at the URL's own path. */
  lemma ResolveTest(host: Host, config: Config)
    requires host.upper("GET") == "GET" && HasWelcome(config)
    ensures Resolve(host, config, Get("/test")) == Some(Hit(Welcome, FileKey("/test", "GET")))
  {
    PlainGet(host, config, "/test");
    TestContent(config);
    assert Prefix("GET", []) == "GET" + "" == "GET";
    ResolveFirstHit(host, config, Get("/test"), 0);
  }

  /** `GET /test` answers with `test/GET.mock`: status 200, its header and `Welcome!`. */
  lemma GetTest(host: Host, config: Config)
    requires host.upper("GET") == "GET" && HasWelcome(config)
    ensures Handle(host, config, Get("/test"))
         == Mocked(MockDefinition(Some("200"), map[host.normalize("Content-Type") := Some("text")], "Welcome!"))
  {
    ResolveTest(host, config);
    WelcomeParsed(host, FileKey("/test", "GET"));
  }

  /** `GET /test/` answers exactly as `GET /test`. */
  lemma GetTestTrailingSlash(host: Host, config: Config)
    requires host.upper("GET") == "GET" && HasWelcome(config)
    ensures Handle(host, config, Get("/test/"))
         == Mocked(MockDefinition(Some("200"), map[host.normalize("Content-Type") := Some("text")], "Welcome!"))
  {
    assert Get("/test/") == Get("/test").(url := "/test" + "/");
    HandleTrailingSlash(host, config, Get("/test"), "/test");
    GetTest(host, config);
  }

  lemma WildcardDirSteps()
    ensures DirSteps("wildcard/__") == ["wildcard", "__"]
  {
    var parts := ["wildcard", "__"];
    assert JoinWith(parts, "/") == "wildcard/__";
    SplitAnyJoin(parts, '/', {'/', '\\'});
  }

  lemma WildcardDirJoin()
    ensures "/" + JoinWith(["wildcard", "__"], "/") == "/wildcard/__"
  {
  }

  /** The segments of `/wildcard/<slug>` for a slug without a slash. */
  lemma WildcardSteps(slug: string)
    requires slug != "" && '/' !in slug
    ensures PathSteps("/wildcard/" + slug) == ["wildcard", slug]
  {
    var parts := ["", "wildcard", slug];
    assert parts[1..] == ["wildcard", slug] && parts[1..][1..] == [slug];
    assert JoinWith(parts[1..], "/") == "wildcard/" + slug by {
      assert JoinWith([slug], "/") == slug;
    }
    assert JoinWith(parts, "/") == "/wildcard/" + slug;
    SplitJoin(parts, '/');
    assert RemoveBlanks(parts) == ["wildcard", slug] by {
      assert parts[1..][1..][1..] == [];
      assert RemoveBlanks([slug]) == [slug];
    }
  }

  /** `wildcard/__` has the segment count of `/wildcard/<slug>` and matches it. */
  lemma SlugQualifies(dir: string, slug: string)
    requires dir == "wildcard/__" && slug != "" && '/' !in slug
    ensures Qualifies(dir, PathSteps("/wildcard/" + slug))
  {
    WildcardDirSteps();
    WildcardSteps(slug);
    var steps := ["wildcard", slug];
    var dirSteps := ["wildcard", "__"];
    assert DirSteps(dir) == dirSteps;
    assert MatchWildcardPath(steps, dirSteps).Some? by {
      MatchAligned(steps, dirSteps);
    }
  }

  /**
   * `getWildcardPath` picks `/wildcard/__` for `/wildcard/<slug>`, whatever
   * the slug, when `wildcard/__` is the first listed wildcard directory.
   */
  lemma WildcardSlug(dirs: seq<string>, slug: string)
    requires |dirs| > 0 && dirs[0] == "wildcard/__"
    requires slug != "" && '/' !in slug
    ensures GetWildcardPath("/wildcard/" + slug, dirs) == Some("/wildcard/__")
  {
    SlugQualifies(dirs[0], slug);
    WildcardDirSteps();
    WildcardDirJoin();
  }

  /** `join(dir, '/<a>/<b>', name)`: a two-segment URL path keys the file two directories down. */
  lemma NestedKey(a: string, b: string, name: string)
    requires a != "" && '/' !in a && b != "" && '/' !in b && name != "" && '/' !in name
    ensures FileKey("/" + a + "/" + b, name) == a + "/" + b + "/" + name
  {
    var tail := [b, name];
    var rest := [a] + tail;
    var parts := [""] + rest;
    JoinWithCons(b, [name], "/");
    assert [b] + [name] == tail;
    JoinWithCons(a, tail, "/");
    JoinWithCons("", rest, "/");
    var key := a + "/" + b + "/" + name;
    assert JoinWith(rest, "/") == key;
    assert JoinWith(parts, "/") == "/" + a + "/" + b + "/" + name;
    KeyOfSegments("/" + a + "/" + b, name, parts);
    RemoveBlanksAppend([""], rest);
    assert RemoveBlanks([""]) == [];
    RemoveBlanksNone(rest);
    assert RemoveBlanks(parts) == rest;
  }

  /** The files of `/wildcard/<slug>` lie in `wildcard/<slug>`. */
  lemma WildcardKey(slug: string, path: string)
    requires slug != "" && '/' !in slug && path == "/wildcard/" + slug
    ensures FileKey(path, "GET.mock") == "wildcard/" + slug + "/GET.mock"
    ensures FileKey(path, "GET") == "wildcard/" + slug + "/GET"
  {
    assert "/" + "wildcard" + "/" == "/wildcard/";
    assert "/" + "wildcard" + "/" + slug == path;
    NestedKey("wildcard", slug, "GET.mock");
    NestedKey("wildcard", slug, "GET");
    var dir := "wildcard" + "/" + slug;
    assert "wildcard" + "/" == "wildcard/";
    assert dir == "wildcard/" + slug;
    assert dir + "/" + "GET.mock" == dir + "/GET.mock";
    assert dir + "/" + "GET" == dir + "/GET";
  }

  /** The files of `/wildcard/__` lie in `wildcard/__`. */
  lemma MarkerKey(path: string)
    requires path == "/wildcard/__"
    ensures FileKey(path, "GET.mock") == "wildcard/__/GET.mock"
    ensures FileKey(path, "GET") == "wildcard/__/GET"
  {
    assert path == "/wildcard/" + "__";
    WildcardKey("__", path);
    assert "wildcard/" + "__" == "wildcard/__";
  }

  /**
   * The mock directory has a non-empty `wildcard/__/GET.mock`, `wildcard/__`
   * is the first listed wildcard directory, and no header is watched.
   */
  predicate ServesWildcard(config: Config) {
    && config.watched == []
    && |config.wildcardDirs| > 0 && config.wildcardDirs[0] == "wildcard/__"
    && "wildcard/__/GET.mock" in config.store
    && config.store["wildcard/__/GET.mock"] != ""
  }

  /** Nothing at `/wildcard/<slug>` itself when it has no `GET.mock`. */
  lemma SlugContent(config: Config, slug: string, url: string)
    requires slug != "" && '/' !in slug && url == "/wildcard/" + slug
    requires "wildcard/" + slug + "/GET.mock" !in config.store
    ensures NoHit(Search(config.store, url, "GET", "", ""), [[]])
  {
    var exact := Search(config.store, url, "GET", "", "");
    assert Prefix("GET", []) == "GET" + "" == "GET";
    assert "GET" + BodyOrQuerySuffix("", "") + ".mock" == "GET.mock";
    WildcardKey(slug, url);
    assert ContentOf(exact, []) == None;
  }

  /** `wildcard/__/GET.mock` is the bare method's content at `/wildcard/__`. */
  lemma MarkerContent(config: Config)
    requires ServesWildcard(config)
    ensures var wild := Search(config.store, "/wildcard/__", "GET", "", "");
            ContentOf(wild, []) == Some(config.store["wildcard/__/GET.mock"]) && FirstHit(wild, [[]], 0)
  {
    assert Prefix("GET", []) == "GET" + "" == "GET";
    assert "GET" + BodyOrQuerySuffix("", "") + ".mock" == "GET.mock";
    MarkerKey("/wildcard/__");
  }

  /**
   * `GET /wildcard/<slug>`, when `wildcard/<slug>/GET.mock` does not exist, is
   * answered from `wildcard/__/GET.mock`, whatever the slug.
   */
  lemma WildcardServed(host: Host, config: Config, slug: string)
    requires host.upper("GET") == "GET" && ServesWildcard(config)
    requires slug != "" && '/' !in slug && '?' !in slug
    requires "wildcard/" + slug + "/GET.mock" !in config.store
    ensures Resolve(host, config, Get("/wildcard/" + slug))
         == Some(Hit(config.store["wildcard/__/GET.mock"], "wildcard/__/GET"))
  {
    var url := "/wildcard/" + slug;
    assert '?' !in url by {
      assert url == "/wildcard/" + slug;
      assert '?' !in "/wildcard/";
    }
    PlainGet(host, config, url);
    SlugContent(config, slug, url);
    WildcardSlug(config.wildcardDirs, slug);
    MarkerContent(config);
    assert Prefix("GET", []) == "GET" + "" == "GET";
    MarkerKey("/wildcard/__");
  }

  /** The same answer as a response: the `wildcard/__` mock, parsed. */
  lemma WildcardServedHandle(host: Host, config: Config, slug: string)
    requires host.upper("GET") == "GET" && ServesWildcard(config)
    requires slug != "" && '/' !in slug && '?' !in slug
    requires "wildcard/" + slug + "/GET.mock" !in config.store
    ensures Handle(host, config, Get("/wildcard/" + slug))
         == Mocked(Parse(host, config.store["wildcard/__/GET.mock"], "wildcard/__/GET"))
  {
    WildcardServed(host, config, slug);
  }

  /** A non-empty `wildcard/<slug>/GET.mock` is the bare method's hit at `/wildcard/<slug>`. */
  lemma SlugHit(config: Config, slug: string, url: string)
    requires slug != "" && '/' !in slug && url == "/wildcard/" + slug
    requires "wildcard/" + slug + "/GET.mock" in config.store
    requires config.store["wildcard/" + slug + "/GET.mock"] != ""
    ensures var exact := Search(config.store, url, "GET", "", "");
            ContentOf(exact, []) == Some(config.store["wildcard/" + slug + "/GET.mock"]) && FirstHit(exact, [[]], 0)
  {
    assert Prefix("GET", []) == "GET" + "" == "GET";
    assert "GET" + BodyOrQuerySuffix("", "") + ".mock" == "GET.mock";
    WildcardKey(slug, url);
  }

  /** When `wildcard/<slug>/GET.mock` exists and is not empty, it is served, not `wildcard/__`. */
  lemma WildcardExactWins(host: Host, config: Config, slug: string)
    requires host.upper("GET") == "GET" && config.watched == []
    requires slug != "" && '/' !in slug && '?' !in slug
    requires "wildcard/" + slug + "/GET.mock" in config.store
    requires config.store["wildcard/" + slug + "/GET.mock"] != ""
    ensures Resolve(host, config, Get("/wildcard/" + slug))
         == Some(Hit(config.store["wildcard/" + slug + "/GET.mock"], "wildcard/" + slug + "/GET"))
  {
    var url := "/wildcard/" + slug;
    assert '?' !in url by {
      assert url == "/wildcard/" + slug;
      assert '?' !in "/wildcard/";
    }
    PlainGet(host, config, url);
    SlugHit(config, slug, url);
    assert Prefix("GET", []) == "GET" + "" == "GET";
    ResolveFirstHit(host, config, Get(url), 0);
    WildcardKey(slug, url);
  }

  /** A one-segment URL path has that one segment. */
  lemma RootSteps(segment: string)
    requires segment != "" && '/' !in segment
    ensures PathSteps("/" + segment) == [segment]
  {
    var parts := ["", segment];
    assert JoinWith(parts, "/") == "/" + segment by {
      assert parts[1..] == [segment];
    }
    SplitJoin(parts, '/');
    assert parts[1..][1..] == [];
    assert RemoveBlanks(parts) == [segment] by {
      assert RemoveBlanks([segment]) == [segment];
    }
  }

  lemma WildcardBare()
    ensures PathSteps("/wildcard") == ["wildcard"]
  {
    RootSteps("wildcard");
    assert "/" + "wildcard" == "/wildcard";
  }

  lemma WildcardTrailing(path: string)
    requires path == "/wildcard"
    ensures PathSteps("/wildcard/") == PathSteps(path)
  {
    PathStepsTrailingSlash(path);
    assert path + "/" == "/wildcard/";
  }

  /** `wildcard/__` neither has a single segment nor is `__` itself. */
  lemma WildcardDirIsDeep(dirs: seq<string>, steps: seq<string>)
    requires dirs == ["wildcard/__"] && |steps| == 1
    ensures forall i :: 0 <= i < |dirs| ==> !Qualifies(dirs[i], steps)
    ensures forall k :: 0 <= k < |steps| ==> !HasWildcardUnder(dirs, steps[..k])
  {
    WildcardDirSteps();
    assert steps[..0] + [Marker] == ["__"];
  }

  /**
   * `GET /wildcard/` has no slug for `__` to stand for: with `wildcard/__` the
   * only wildcard directory, nothing serves it.
   */
  lemma WildcardMissingSlug(dirs: seq<string>)
    requires dirs == ["wildcard/__"]
    ensures GetWildcardPath("/wildcard/", dirs) == None
  {
    WildcardBare();
    WildcardTrailing("/wildcard");
    WildcardDirIsDeep(dirs, PathSteps("/wildcard/"));
  }

  /** `/not-there` is one segment, which `wildcard/__` does not serve. */
  lemma NotThereWild(dirs: seq<string>)
    requires dirs == ["wildcard/__"]
    ensures GetWildcardPath("/not-there", dirs) == None
  {
    RootSteps("not-there");
    assert "/" + "not-there" == "/not-there";
    WildcardDirIsDeep(dirs, PathSteps("/not-there"));
  }

  /** Without `not-there/GET.mock` the bare method finds nothing at `/not-there`. */
  lemma NotThereContent(config: Config)
    requires "not-there/GET.mock" !in config.store
    ensures NoHit(Search(config.store, "/not-there", "GET", "", ""), [[]])
  {
    var exact := Search(config.store, "/not-there", "GET", "", "");
    assert Prefix("GET", []) == "GET" + "" == "GET";
    assert "GET" + BodyOrQuerySuffix("", "") + ".mock" == "GET.mock";
    GetMockKey("not-there", "/not-there");
    assert "not-there" + "/GET.mock" == "not-there/GET.mock";
    assert ContentOf(exact, []) == None;
  }

  /**
   * `GET /not-there` answers `404 Not Mocked` when no such file exists and
   * `wildcard/__` is the only wildcard directory.
   */
  lemma NotThere(host: Host, config: Config)
    requires host.upper("GET") == "GET" && config.watched == []
    requires config.wildcardDirs == ["wildcard/__"] && "not-there/GET.mock" !in config.store
    ensures Handle(host, config, Get("/not-there")) == NotMocked
  {
    PlainGet(host, config, "/not-there");
    NotThereContent(config);
    NotThereWild(config.wildcardDirs);
  }
}

=== FILE: text.dfy ===
/**
 * The string primitives the server leans on, with JavaScript's meaning:
 * `String.prototype.indexOf`, `split` with a string or a character class,
 * `Array.prototype.join`, a global `replace` that deletes one character,
 * and the `^` anchor of a multi-line regular expression.
 */
module Text {

  /** True when `sep` occurs in `s` starting at index `i`. */
  predicate OccursAt(s: string, sep: string, i: int) {
    0 <= i && i + |sep| <= |s| && s[i..i + |sep|] == sep
  }

  predicate Contains(s: string, sep: string) {
    exists i | 0 <= i <= |s| :: OccursAt(s, sep, i)
  }

  /** The first occurrence of `sep` at or after `from`, or -1. */
  function IndexFrom(s: string, sep: string, from: nat): (r: int)
    requires from <= |s|
    ensures r == -1 || (from <= r && OccursAt(s, sep, r))
    ensures r == -1 ==> forall i :: from <= i ==> !OccursAt(s, sep, i)
    ensures r >= 0 ==> forall i :: from <= i < r ==> !OccursAt(s, sep, i)
    decreases |s| - from
  {
    if from + |sep| > |s| then -1
    else if s[from..from + |sep|] == sep then from
    else IndexFrom(s, sep, from + 1)
  }

  /** `s.indexOf(sep)`: the first occurrence of `sep`, or -1. */
  function IndexOf(s: string, sep: string): (r: int)
    ensures r == -1 <==> !Contains(s, sep)
    ensures r >= 0 ==> OccursAt(s, sep, r) && forall i :: 0 <= i < r ==> !OccursAt(s, sep, i)
  {
    IndexFrom(s, sep, 0)
  }

  /** `parts.join(sep)`. */
  function JoinWith(parts: seq<string>, sep: string): string
  {
    if |parts| == 0 then ""
    else if |parts| == 1 then parts[0]
    else parts[0] + sep + JoinWith(parts[1..], sep)
  }

  /** `s.split(sep)` for a non-empty separator string. */
  function SplitOn(s: string, sep: string): (parts: seq<string>)
    requires |sep| > 0
    ensures |parts| >= 1
    decreases |s|
  {
    var i := IndexOf(s, sep);
    if i < 0 then [s]
    else [s[..i]] + SplitOn(s[i + |sep|..], sep)
  }

  /** Joining the pieces of a split with the separator gives the text back. */
  lemma {:induction false} SplitOnJoinBack(s: string, sep: string)
    requires |sep| > 0
    ensures JoinWith(SplitOn(s, sep), sep) == s
    decreases |s|
  {
    var i := IndexOf(s, sep);
    if i >= 0 {
      var rest := s[i + |sep|..];
      SplitOnJoinBack(rest, sep);
      SplitOnStep(s, sep, i, s[..i], rest);
      JoinWithCons(s[..i], SplitOn(rest, sep), sep);
      CutAround(s, sep, i);
    }
  }

  /** Text whose first separator follows a separator-free `a` splits into `a` and the split of the rest. */
  lemma SplitAfterFree(a: string, sep: string, t: string)
    requires |sep| == 1 && !Contains(a, sep)
    ensures SplitOn(a + sep + t, sep) == [a] + SplitOn(t, sep)
  {
    var s := a + sep + t;
    IndexOfAfterFree(a, sep, t);
    assert s[..|a|] == a;
    assert s[|a| + 1..] == t;
    SplitOnStep(s, sep, |a|, a, t);
  }

  /** Text with `sep` at `i` is what precedes it, `sep`, and what follows. */
  lemma CutAround(s: string, sep: string, i: int)
    requires OccursAt(s, sep, i)
    ensures s == s[..i] + sep + s[i + |sep|..]
  {
    assert s == s[..i] + s[i..i + |sep|] + s[i + |sep|..];
  }

  lemma JoinWithCons(head: string, tail: seq<string>, sep: string)
    requires |tail| >= 1
    ensures JoinWith([head] + tail, sep) == head + sep + JoinWith(tail, sep)
  {
    assert ([head] + tail)[1..] == tail;
  }

  /** A join starts with its first part and ends with its last; with no parts it is empty. */
  lemma {:induction false} JoinWithEnds(parts: seq<string>, sep: string)
    ensures |parts| == 0 ==> JoinWith(parts, sep) == ""
    ensures |parts| >= 1 ==> parts[0] <= JoinWith(parts, sep)
    ensures |parts| >= 1 ==> var r, last := JoinWith(parts, sep), parts[|parts| - 1];
                               |last| <= |r| && r[|r| - |last|..] == last
    decreases |parts|
  {
    if |parts| >= 2 {
      JoinWithEnds(parts[1..], sep);
      var tail := JoinWith(parts[1..], sep);
      assert parts[1..][|parts[1..]| - 1] == parts[|parts| - 1];
      assert JoinWith(parts, sep) == parts[0] + sep + tail;
    }
  }

  /** No piece of a split holds the separator. */
  lemma {:induction false} SplitOnPiecesFree(s: string, sep: string)
    requires |sep| > 0
    ensures forall k :: 0 <= k < |SplitOn(s, sep)| ==> !Contains(SplitOn(s, sep)[k], sep)
    decreases |s|
  {
    var i := IndexOf(s, sep);
    if i >= 0 {
      var rest := s[i + |sep|..];
      SplitOnPiecesFree(rest, sep);
      NoOccurrenceBefore(s, sep, i);
      SplitOnStep(s, sep, i, s[..i], rest);
      var tail := SplitOn(rest, sep);
      assert forall k :: 1 <= k < |tail| + 1 ==> ([s[..i]] + tail)[k] == tail[k - 1];
    }
  }

  /** `s.split(re)` for a regular expression matching one character of `cs`. */
  function SplitAny(s: string, cs: set<char>): (parts: seq<string>)
    ensures |parts| >= 1
    ensures forall k, ch :: 0 <= k < |parts| && ch in parts[k] ==> ch !in cs
    decreases |s|
  {
    if |s| == 0 then [""]
    else
      var rest := SplitAny(s[1..], cs);
      if s[0] in cs then [""] + rest
      else [[s[0]] + rest[0]] + rest[1..]
  }

  /** `s.replace(/c/g, '')`: every occurrence of `c` deleted. */
  function Without(s: string, c: char): (r: string)
    ensures c !in r
    ensures forall d :: d != c ==> multiset(r)[d] == multiset(s)[d]
    ensures c !in s ==> r == s
  {
    if |s| == 0 then ""
    else
      assert s == [s[0]] + s[1..];
      (if s[0] == c then "" else [s[0]]) + Without(s[1..], c)
  }

  /** Deleting `c` works character by character: it distributes over concatenation, so the kept characters stay in order. */
  lemma {:induction false} WithoutAppend(a: string, b: string, c: char)
    ensures Without(a + b, c) == Without(a, c) + Without(b, c)
    decreases |a|
  {
    if |a| == 0 {
      assert a + b == b;
    } else {
      assert (a + b)[1..] == a[1..] + b;
      WithoutAppend(a[1..], b, c);
    }
  }

  /** `array.filter(i => i)` on strings: the empty entries dropped. */
  function RemoveBlanks(xs: seq<string>): (r: seq<string>)
    ensures "" !in r
    ensures forall x :: x in r ==> x in xs
    ensures |r| <= |xs|
  {
    if |xs| == 0 then []
    else
      assert xs == [xs[0]] + xs[1..];
      (if xs[0] == "" then [] else [xs[0]]) + RemoveBlanks(xs[1..])
  }

  /** The characters after which `^` matches in a multi-line JavaScript regular expression. */
  predicate IsLineTerminator(ch: char) {
    ch == '\n' || ch == '\r' || ch == '\U{2028}' || ch == '\U{2029}'
  }

  predicate LineStartAt(s: string, i: int) {
    0 <= i <= |s| && (i == 0 || IsLineTerminator(s[i - 1]))
  }

  /** `/^marker/m.test(s)`: some line of `s` begins with `marker`. */
  predicate HasLineStartingWith(s: string, marker: string) {
    exists i | 0 <= i <= |s| :: OccursAt(s, marker, i) && LineStartAt(s, i)
  }

  // ---------------------------------------------------------------------------
  // Lemmas about occurrences, splitting and joining
  // ---------------------------------------------------------------------------

  lemma NoOccurrenceBefore(s: string, sep: string, n: int)
    requires |sep| > 0
    requires 0 <= n <= |s|
    requires forall i :: 0 <= i < n ==> !OccursAt(s, sep, i)
    ensures !Contains(s[..n], sep)
  {
    forall i | 0 <= i <= n
      ensures !OccursAt(s[..n], sep, i)
    {
      if i + |sep| <= n {
        assert s[..n][i..i + |sep|] == s[i..i + |sep|];
        assert !OccursAt(s, sep, i);
      }
    }
  }

  lemma OccursInSuffix(s: string, sep: string, n: int, i: int)
    requires 0 <= n <= |s|
    requires OccursAt(s[n..], sep, i)
    ensures OccursAt(s, sep, n + i)
  {
    assert s[n..][i..i + |sep|] == s[n + i..n + i + |sep|];
  }

  /** What does not occur in a text does not occur in any suffix of it. */
  lemma AbsentInSuffix(s: string, sep: string, n: int)
    requires 0 <= n <= |s| && !Contains(s, sep)
    ensures !Contains(s[n..], sep)
  {
    forall j | 0 <= j <= |s[n..]|
      ensures !OccursAt(s[n..], sep, j)
    {
      if j + |sep| <= |s[n..]| {
        assert s[n..][j..j + |sep|] == s[n + j..n + j + |sep|];
        assert !OccursAt(s, sep, n + j);
      }
    }
  }

  lemma OccursInPrefix(a: string, t: string, sep: string, i: int)
    requires OccursAt(a, sep, i)
    ensures OccursAt(a + t, sep, i)
  {
    assert (a + t)[i..i + |sep|] == a[i..i + |sep|];
  }

  /** A single character occurs exactly where it stands. */
  lemma ContainsChar(s: string, c: char)
    ensures Contains(s, [c]) <==> c in s
  {
    if c in s {
      var i :| 0 <= i < |s| && s[i] == c;
      assert OccursAt(s, [c], i);
    }
    if Contains(s, [c]) {
      var i :| 0 <= i <= |s| && OccursAt(s, [c], i);
      assert i + 1 <= |s| && s[i..i + 1] == [c];
      assert s[i] == c;
    }
  }

  /** An occurrence found in a prefix is still the first one after anything is appended. */
  lemma IndexOfAppend(a: string, t: string, sep: string)
    requires IndexOf(a, sep) >= 0
    ensures IndexOf(a + t, sep) == IndexOf(a, sep)
  {
    var j := IndexOf(a, sep);
    OccursInPrefix(a, t, sep, j);
    forall i | 0 <= i < j
      ensures !OccursAt(a + t, sep, i)
    {
      assert !OccursAt(a, sep, i);
      assert i + |sep| <= |a|;
      assert (a + t)[i..i + |sep|] == a[i..i + |sep|];
    }
  }

  /**
   * A separator of one or two distinct characters that does not occur in `a`
   * is first found right after `a`: it cannot straddle `a`'s end.
   */
  lemma IndexOfAfterFree(a: string, sep: string, t: string)
    requires |sep| == 1 || (|sep| == 2 && sep[0] != sep[1])
    requires !Contains(a, sep)
    ensures IndexOf(a + sep + t, sep) == |a|
  {
    var s := a + sep + t;
    assert OccursAt(s, sep, |a|) by {
      assert s[|a|..|a| + |sep|] == sep;
    }
    forall i | 0 <= i < |a|
      ensures !OccursAt(s, sep, i)
    {
      if i + |sep| <= |a| {
        assert a[i..i + |sep|] == s[i..i + |sep|];
        assert !OccursAt(a, sep, i);
      } else if |sep| == 2 {
        assert s[i + 1] == sep[0];
        assert s[i..i + 2][1] != sep[1];
      }
    }
  }

  lemma SplitOnFree(s: string, sep: string)
    requires |sep| > 0
    requires !Contains(s, sep)
    ensures SplitOn(s, sep) == [s]
  {
  }

  /** `s.split(sep)` is `[s]` exactly when `sep` does not occur in `s`. */
  lemma SplitOnSingle(s: string, sep: string)
    requires |sep| > 0
    ensures SplitOn(s, sep) == [s] <==> !Contains(s, sep)
  {
    if !Contains(s, sep) {
      SplitOnFree(s, sep);
    } else {
      var i := IndexOf(s, sep);
      assert |SplitOn(s, sep)| == 1 + |SplitOn(s[i + |sep|..], sep)|;
    }
  }

  /** One step of `SplitOn`: the piece before the first separator, then the split of the rest. */
  lemma SplitOnUnfold(s: string, sep: string)
    requires |sep| > 0
    ensures IndexOf(s, sep) < 0 ==> SplitOn(s, sep) == [s]
    ensures IndexOf(s, sep) >= 0 ==>
              var i := IndexOf(s, sep);
              SplitOn(s, sep) == [s[..i]] + SplitOn(s[i + |sep|..], sep)
  {
  }

  /** Splitting on one character distributes over a concatenation joined by that character. */
  lemma {:induction false} SplitOnConcat(a: string, c: char, b: string)
    ensures SplitOn(a + [c] + b, [c]) == SplitOn(a, [c]) + SplitOn(b, [c])
    decreases |a|, 1
  {
    if IndexOf(a, [c]) >= 0 {
      SplitOnConcatAfter(a, c, b);
    } else {
      var s := a + [c] + b;
      SplitOnUnfold(s, [c]);
      SplitOnUnfold(a, [c]);
      assert IndexOf(s, [c]) == |a| by {
        IndexOfAfterFree(a, [c], b);
      }
      assert s[|a| + 1..] == b;
      assert s[..|a|] == a;
    }
  }

  /** The case of `SplitOnConcat` where `a` itself holds the character: the first piece is cut inside `a`. */
  lemma {:induction false} SplitOnConcatAfter(a: string, c: char, b: string)
    requires IndexOf(a, [c]) >= 0
    ensures SplitOn(a + [c] + b, [c]) == SplitOn(a, [c]) + SplitOn(b, [c])
    decreases |a|, 0
  {
    var j := IndexOf(a, [c]);
    var tail := a[j + 1..];
    SplitOnCutInside(a, c, b);
    SplitOnStep(a, [c], j, a[..j], tail);
    SplitOnConcat(tail, c, b);
    ConsAssoc(a[..j], SplitOn(tail + [c] + b, [c]), SplitOn(tail, [c]), SplitOn(b, [c]));
  }

  lemma ConsAssoc<T>(x: T, p: seq<T>, q: seq<T>, r: seq<T>)
    requires p == q + r
    ensures [x] + p == ([x] + q) + r
  {
  }

  /** A split whose first separator is at `j` starts with the piece before it. */
  lemma SplitOnStep(s: string, sep: string, j: int, head: string, rest: string)
    requires |sep| > 0 && IndexOf(s, sep) == j >= 0
    requires s[..j] == head && s[j + |sep|..] == rest
    ensures SplitOn(s, sep) == [head] + SplitOn(rest, sep)
  {
    SplitOnUnfold(s, sep);
  }

  /** When `a` holds the character, the split of `a + [c] + b` cuts first where that of `a` does. */
  lemma SplitOnCutInside(a: string, c: char, b: string)
    requires IndexOf(a, [c]) >= 0
    ensures var j := IndexOf(a, [c]);
            SplitOn(a + [c] + b, [c]) == [a[..j]] + SplitOn(a[j + 1..] + [c] + b, [c])
  {
    var s := a + [c] + b;
    var j := IndexOf(a, [c]);
    assert IndexOf(s, [c]) == j by {
      IndexOfAppend(a, [c] + b, [c]);
      assert s == a + ([c] + b);
    }
    assert s[..j] == a[..j];
    assert s[j + 1..] == a[j + 1..] + [c] + b;
    SplitOnStep(s, [c], j, a[..j], a[j + 1..] + [c] + b);
  }

  /** Joining with one character and splitting on it again gives back the pieces. */
  lemma {:induction false} SplitJoin(parts: seq<string>, c: char)
    requires |parts| >= 1
    requires forall k :: 0 <= k < |parts| ==> c !in parts[k]
    ensures SplitOn(JoinWith(parts, [c]), [c]) == parts
    decreases |parts|
  {
    ContainsChar(parts[0], c);
    if |parts| == 1 {
      SplitOnFree(parts[0], [c]);
    } else {
      SplitOnConcat(parts[0], c, JoinWith(parts[1..], [c]));
      SplitOnFree(parts[0], [c]);
      SplitJoin(parts[1..], c);
    }
  }

  lemma {:induction false} JoinWithAppend(a: seq<string>, b: seq<string>, sep: string)
    requires |a| >= 1 && |b| >= 1
    ensures JoinWith(a + b, sep) == JoinWith(a, sep) + sep + JoinWith(b, sep)
    decreases |a|
  {
    if |a| == 1 {
      assert (a + b)[1..] == b;
    } else {
      assert (a + b)[1..] == a[1..] + b;
      JoinWithAppend(a[1..], b, sep);
    }
  }

  /** Every non-empty string keeps its number of occurrences. */
  lemma {:induction false} RemoveBlanksCounts(xs: seq<string>)
    ensures forall x :: x != "" ==> multiset(RemoveBlanks(xs))[x] == multiset(xs)[x]
    decreases |xs|
  {
    if |xs| > 0 {
      RemoveBlanksCounts(xs[1..]);
      assert xs == [xs[0]] + xs[1..];
    }
  }

  lemma {:induction false} RemoveBlanksAppend(a: seq<string>, b: seq<string>)
    ensures RemoveBlanks(a + b) == RemoveBlanks(a) + RemoveBlanks(b)
    decreases |a|
  {
    if |a| == 0 {
      assert a + b == b;
    } else {
      var h := if a[0] == "" then [] else [a[0]];
      assert (a + b)[0] == a[0] && (a + b)[1..] == a[1..] + b;
      assert RemoveBlanks(a + b) == h + RemoveBlanks(a[1..] + b);
      RemoveBlanksAppend(a[1..], b);
      assert RemoveBlanks(a) == h + RemoveBlanks(a[1..]);
    }
  }

  /** The filter keeps a list without empty strings as it is. */
  lemma {:induction false} RemoveBlanksNone(xs: seq<string>)
    requires "" !in xs
    ensures RemoveBlanks(xs) == xs
    decreases |xs|
  {
    if |xs| > 0 {
      assert xs[0] != "" && "" !in xs[1..];
      RemoveBlanksNone(xs[1..]);
      assert [xs[0]] + xs[1..] == xs;
    }
  }

  /** A string without a separator character is one piece. */
  lemma {:induction false} SplitAnyFree(s: string, cs: set<char>)
    requires forall k :: 0 <= k < |s| ==> s[k] !in cs
    ensures SplitAny(s, cs) == [s]
    decreases |s|
  {
    if |s| > 0 {
      SplitAnyFree(s[1..], cs);
      assert s == [s[0]] + s[1..];
    }
  }

  /** Splitting on a character class distributes over a concatenation joined by one of its characters. */
  lemma {:induction false} SplitAnyConcat(a: string, c: char, b: string, cs: set<char>)
    requires c in cs
    ensures SplitAny(a + [c] + b, cs) == SplitAny(a, cs) + SplitAny(b, cs)
    decreases |a|
  {
    if |a| == 0 {
      assert a + [c] + b == [c] + b;
      assert ([c] + b)[1..] == b;
    } else {
      assert (a + [c] + b)[0] == a[0];
      assert (a + [c] + b)[1..] == a[1..] + [c] + b;
      SplitAnyConcat(a[1..], c, b, cs);
    }
  }

  /** Joining pieces free of a character class with one of its characters and splitting again gives them back. */
  lemma {:induction false} SplitAnyJoin(parts: seq<string>, c: char, cs: set<char>)
    requires c in cs && |parts| >= 1
    requires forall k, i :: 0 <= k < |parts| && 0 <= i < |parts[k]| ==> parts[k][i] !in cs
    ensures SplitAny(JoinWith(parts, [c]), cs) == parts
    decreases |parts|
  {
    SplitAnyFree(parts[0], cs);
    if |parts| > 1 {
      SplitAnyConcat(parts[0], c, JoinWith(parts[1..], [c]), cs);
      SplitAnyJoin(parts[1..], c, cs);
    }
  }

  /** A separator whose first character is absent does not occur. */
  lemma FirstCharAbsent(s: string, sep: string)
    requires |sep| > 0 && sep[0] !in s
    ensures !Contains(s, sep)
  {
    forall i | 0 <= i <= |s|
      ensures !OccursAt(s, sep, i)
    {
      if i + |sep| <= |s| {
        assert s[i..i + |sep|][0] == s[i];
      }
    }
  }

  /** A marker whose first character is absent starts no line. */
  lemma NoLineStartsWith(s: string, marker: string)
    requires |marker| > 0 && marker[0] !in s
    ensures !HasLineStartingWith(s, marker)
  {
    FirstCharAbsent(s, marker);
  }
}

=== FILE: watched.dfy ===
/**
 * The watched-header list (`prepareWatchedHeaders` in mockserver.js): the
 * request headers whose values take part in the mock file name.
 */
module WatchedHeaders {
  import opened Wrappers
  import opened Text

  /** The exported `headers` setting: unset (`null`), an array of names, or a comma-separated string. */
  datatype Exported = Unset | Names(names: seq<string>) | CommaSeparated(text: string)

  /** `module.exports.headers && module.exports.headers.toString()`, with `""` for unset. */
  function ExportedText(exported: Exported): string {
    match exported
    case Unset => ""
    case Names(names) => JoinWith(names, ",")
    case CommaSeparated(text) => text
  }

  /** `exportHeaders || process.env.MOCK_HEADERS || ''`. */
  function WatchedSource(exported: Exported, mockHeaders: Option<string>): string {
    if ExportedText(exported) != "" then ExportedText(exported) else mockHeaders.GetOr("")
  }

  /** `xs.indexOf(x)`, with `|xs|` standing for -1. */
  function FirstIndex(xs: seq<string>, x: string): (r: nat)
    ensures r <= |xs|
    ensures r < |xs| <==> x in xs
    ensures r < |xs| ==> xs[r] == x
    ensures forall j :: 0 <= j < r ==> xs[j] != x
  {
    if |xs| == 0 then 0
    else if xs[0] == x then 0
    else 1 + FirstIndex(xs[1..], x)
  }

  /**
   * `items.filter((item, pos, self) => item && self.indexOf(item) == pos)`:
   * the non-empty items, each once, in the order of their first occurrence.
   */
  method FirstOccurrences(items: seq<string>) returns (kept: seq<string>)
    ensures forall h :: h in kept <==> h in items && h != ""
    ensures forall i, j :: 0 <= i < j < |kept| ==> kept[i] != kept[j]
    ensures forall i, j :: 0 <= i < j < |kept| ==> FirstIndex(items, kept[i]) < FirstIndex(items, kept[j])
  {
    kept := [];
    var pos := 0;
    while pos < |items|
      invariant 0 <= pos <= |items|
      invariant forall h :: h in kept <==> h in items[..pos] && h != ""
      invariant forall i, j :: 0 <= i < j < |kept| ==> FirstIndex(items, kept[i]) < FirstIndex(items, kept[j])
      invariant forall i :: 0 <= i < |kept| ==> FirstIndex(items, kept[i]) < pos
    {
      var item := items[pos];
      assert items[..pos + 1] == items[..pos] + [item];
      if item != "" && FirstIndex(items, item) == pos {
        assert item !in items[..pos];
        kept := kept + [item];
      } else if item != "" {
        assert item in items[..pos] by {
          assert items[FirstIndex(items, item)] == item;
        }
      }
      pos := pos + 1;
    }
    assert items[..pos] == items;
    forall i, j | 0 <= i < j < |kept|
      ensures kept[i] != kept[j]
    {
      assert FirstIndex(items, kept[i]) != FirstIndex(items, kept[j]);
    }
  }

  /**
   * `prepareWatchedHeaders()`: the comma-separated names of the exported
   * setting, or else of `MOCK_HEADERS`, without empty entries and keeping
   * only the first occurrence of each name.
   */
  method PrepareWatchedHeaders(exported: Exported, mockHeaders: Option<string>) returns (watched: seq<string>)
    ensures var items := SplitOn(WatchedSource(exported, mockHeaders), ",");
            && (forall h :: h in watched <==> h in items && h != "")
            && (forall i, j :: 0 <= i < j < |watched| ==> watched[i] != watched[j])
            && (forall i, j :: 0 <= i < j < |watched| ==> FirstIndex(items, watched[i]) < FirstIndex(items, watched[j]))
    ensures ExportedText(exported) != "" ==>
              forall h :: h in watched <==> h in SplitOn(ExportedText(exported), ",") && h != ""
    ensures ExportedText(exported) == "" ==>
              forall h :: h in watched <==> h in SplitOn(mockHeaders.GetOr(""), ",") && h != ""
    ensures forall h :: h in watched ==> ',' !in h
  {
    var items := SplitOn(WatchedSource(exported, mockHeaders), ",");
    watched := FirstOccurrences(items);
    SplitOnPiecesFree(WatchedSource(exported, mockHeaders), ",");
    forall k | 0 <= k < |items|
      ensures ',' !in items[k]
    {
      ContainsChar(items[k], ',');
    }
  }
}

=== FILE: wildcard.dfy ===
/**
 * Wildcard directories (`getWildcardPath`, `matchWildcardPaths`,
 * `matchWildcardPath` and `removeBlanks` in mockserver.js): a directory
 * named `__` stands for any one segment of the request path.
 *
 * The directory tree is not walked here: the caller supplies the relative
 * paths of the directories that have a `__` segment, in the order the
 * server's listing leaves them.
 */
module Wildcard {
  import opened Wrappers
  import opened Text

  const Marker := "__"

  /** `dir.split(/\/|\\/)`: a listed directory's segments, on either kind of slash. */
  function DirSteps(dir: string): (r: seq<string>)
    ensures |r| >= 1
    ensures forall k, ch :: 0 <= k < |r| && ch in r[k] ==> ch != '/' && ch != '\\'
  {
    SplitAny(dir, {'/', '\\'})
  }

  /** `removeBlanks(dir.split('/'))`: the non-empty segments of a request path. */
  function PathSteps(path: string): (r: seq<string>)
    ensures "" !in r
    ensures forall k :: 0 <= k < |r| ==> !Contains(r[k], "/")
  {
    var pieces := SplitOn(path, "/");
    SplitOnPiecesFree(path, "/");
    assert forall x :: x in pieces ==> !Contains(x, "/");
    RemoveBlanks(pieces)
  }

  /**
   * The `i`-th segment from the end (counting from 1) of `steps` is accepted by
   * `dirSteps`: the directory has such a segment, and it is equal or `__`.
   */
  predicate AgreesFromEnd(steps: seq<string>, dirSteps: seq<string>, i: int)
    requires 1 <= i <= |steps|
  {
    && |dirSteps| >= i
    && (steps[|steps| - i] == dirSteps[|dirSteps| - i] || dirSteps[|dirSteps| - i] == Marker)
  }

  /** The `for (stepIndex ...)` loop of `matchWildcardPath` from `stepIndex` on. */
  function MatchFrom(steps: seq<string>, dirSteps: seq<string>, stepIndex: nat): (ok: bool)
    requires 1 <= stepIndex <= |steps| + 1
    ensures ok <==> forall k :: stepIndex <= k <= |steps| ==> AgreesFromEnd(steps, dirSteps, k)
    decreases |steps| + 1 - stepIndex
  {
    if stepIndex > |steps| then true
    else if !AgreesFromEnd(steps, dirSteps, stepIndex) then false
    else MatchFrom(steps, dirSteps, stepIndex + 1)
  }

  /**
   * `matchWildcardPath(steps, dirSteps)`: compares the segments from the end;
   * on success the directory as an absolute path.
   */
  function MatchWildcardPath(steps: seq<string>, dirSteps: seq<string>): (r: Option<string>)
    ensures r.Some? ==> r.value == "/" + JoinWith(dirSteps, "/") && |dirSteps| >= |steps|
    ensures r.Some? <==> forall k :: 1 <= k <= |steps| ==> AgreesFromEnd(steps, dirSteps, k)
  {
    var ok := MatchFrom(steps, dirSteps, 1);
    if ok then
      assert |steps| == 0 || AgreesFromEnd(steps, dirSteps, |steps|);
      Some("/" + JoinWith(dirSteps, "/"))
    else None
  }

  /** For equally long paths, agreeing from the end is agreeing position by position. */
  lemma MatchAligned(steps: seq<string>, dirSteps: seq<string>)
    requires |steps| == |dirSteps|
    ensures MatchWildcardPath(steps, dirSteps).Some?
            <==> forall j :: 0 <= j < |steps| ==> steps[j] == dirSteps[j] || dirSteps[j] == Marker
  {
    if MatchWildcardPath(steps, dirSteps).Some? {
      forall j | 0 <= j < |steps|
        ensures steps[j] == dirSteps[j] || dirSteps[j] == Marker
      {
        assert AgreesFromEnd(steps, dirSteps, |steps| - j);
      }
    } else {
      var k :| 1 <= k <= |steps| && !AgreesFromEnd(steps, dirSteps, k);
      var j := |steps| - k;
      assert !(steps[j] == dirSteps[j] || dirSteps[j] == Marker);
    }
  }

  /** A listed directory has as many segments as the request path and matches it. */
  predicate Qualifies(dir: string, steps: seq<string>) {
    |DirSteps(dir)| == |steps| && MatchWildcardPath(steps, DirSteps(dir)).Some?
  }

  /** Position of the first listed directory from `from` on that qualifies, or `|res|`. */
  function FirstQualifying(res: seq<string>, steps: seq<string>, from: nat): (i: nat)
    requires from <= |res|
    ensures from <= i <= |res|
    ensures forall j :: from <= j < i ==> !Qualifies(res[j], steps)
    ensures i < |res| ==> Qualifies(res[i], steps)
    decreases |res| - from
  {
    if from == |res| || Qualifies(res[from], steps) then from
    else FirstQualifying(res, steps, from + 1)
  }

  /** The `for (resIndex ...)` loop of `matchWildcardPaths` from `resIndex` on. */
  function MatchPathsFrom(res: seq<string>, steps: seq<string>, resIndex: nat): (r: Option<string>)
    requires resIndex <= |res|
    ensures var i := FirstQualifying(res, steps, resIndex);
            r == if i < |res| then MatchWildcardPath(steps, DirSteps(res[i])) else None
    decreases |res| - resIndex
  {
    if resIndex == |res| then None
    else
      var dirSteps := DirSteps(res[resIndex]);
      if |dirSteps| != |steps| then MatchPathsFrom(res, steps, resIndex + 1)
      else
        var result := MatchWildcardPath(steps, dirSteps);
        if result.Some? then result else MatchPathsFrom(res, steps, resIndex + 1)
  }

  /**
   * `matchWildcardPaths(res, steps)`: the match of the first listed directory
   * with the request's segment count that matches it, in list order.
   */
  function MatchWildcardPaths(res: seq<string>, steps: seq<string>): (r: Option<string>)
    ensures r.None? <==> forall i :: 0 <= i < |res| ==> !Qualifies(res[i], steps)
    ensures r.Some? ==> exists i :: 0 <= i < |res| && Qualifies(res[i], steps)
                                   && r == MatchWildcardPath(steps, DirSteps(res[i]))
                                   && forall j :: 0 <= j < i ==> !Qualifies(res[j], steps)
  {
    MatchPathsFrom(res, steps, 0)
  }

  /** `fs.existsSync` of the directory `dirSteps`, answered from the listing. */
  predicate Listed(wildcardDirs: seq<string>, dirSteps: seq<string>) {
    exists e :: e in wildcardDirs && DirSteps(e) == dirSteps
  }

  /** `join(steps.join('/'), '/__')`. */
  function ProbePath(prefix: seq<string>): (r: string)
    ensures |r| >= 3 && r[|r| - 3..] == "/__"
    ensures |prefix| > 0 ==> r[..|r| - 3] == JoinWith(prefix, "/")
  {
    if |prefix| == 0 then "/__" else JoinWith(prefix, "/") + "/__"
  }

  /** `prefix/__` is a listed directory. */
  predicate HasWildcardUnder(wildcardDirs: seq<string>, prefix: seq<string>) {
    Listed(wildcardDirs, prefix + [Marker])
  }

  /**
   * The `while (steps.length)` loop of `getWildcardPath`: pops a segment,
   * probes `<remaining segments>/__`, and keeps the latest hit, so the
   * shortest prefix with a `__` directory under it wins.
   */
  function ProbeLoop(wildcardDirs: seq<string>, steps: seq<string>, found: Option<string>): (r: Option<string>)
    ensures (forall k :: 0 <= k < |steps| ==> !HasWildcardUnder(wildcardDirs, steps[..k])) ==> r == found
    ensures forall k :: 0 <= k < |steps| && HasWildcardUnder(wildcardDirs, steps[..k])
                        && (forall k' :: 0 <= k' < k ==> !HasWildcardUnder(wildcardDirs, steps[..k']))
                        ==> r == Some(ProbePath(steps[..k]))
    decreases |steps|
  {
    if |steps| == 0 then found
    else
      var rest := steps[..|steps| - 1];
      assert forall k :: 0 <= k <= |rest| ==> rest[..k] == steps[..k];
      var found' := if HasWildcardUnder(wildcardDirs, rest) then Some(ProbePath(rest)) else found;
      ProbeLoop(wildcardDirs, rest, found')
  }

  /**
   * `getWildcardPath(dir)`: the first listed directory matching the path's
   * segments; failing that, `<prefix>/__` for the shortest prefix of the
   * segments (the last one the probe loop tries) with such a directory;
   * failing that, nothing.
   */
  function GetWildcardPath(dir: string, wildcardDirs: seq<string>): (r: Option<string>)
    ensures var steps := PathSteps(dir);
            forall i :: 0 <= i < |wildcardDirs| && Qualifies(wildcardDirs[i], steps)
                        && (forall j :: 0 <= j < i ==> !Qualifies(wildcardDirs[j], steps))
                        ==> r == Some("/" + JoinWith(DirSteps(wildcardDirs[i]), "/"))
    ensures var steps := PathSteps(dir);
            (forall i :: 0 <= i < |wildcardDirs| ==> !Qualifies(wildcardDirs[i], steps)) ==>
              && (forall k :: 0 <= k < |steps| && HasWildcardUnder(wildcardDirs, steps[..k])
                              && (forall k' :: 0 <= k' < k ==> !HasWildcardUnder(wildcardDirs, steps[..k']))
                              ==> r == Some(ProbePath(steps[..k])))
              && ((forall k :: 0 <= k < |steps| ==> !HasWildcardUnder(wildcardDirs, steps[..k])) ==> r == None)
  {
    var steps := PathSteps(dir);
    var probed := ProbeLoop(wildcardDirs, steps, None);
    var matched := MatchWildcardPaths(wildcardDirs, steps);
    PickListedOrProbed(wildcardDirs, steps, matched, probed);
    if matched.Some? then matched else probed
  }

  /** The choice `getWildcardPath` makes between a listed match and the probe loop's hit. */
  lemma PickListedOrProbed(wildcardDirs: seq<string>, steps: seq<string>, matched: Option<string>, probed: Option<string>)
    requires matched == MatchWildcardPaths(wildcardDirs, steps)
    requires probed == ProbeLoop(wildcardDirs, steps, None)
    ensures var r := if matched.Some? then matched else probed;
            forall i :: 0 <= i < |wildcardDirs| && Qualifies(wildcardDirs[i], steps)
                        && (forall j :: 0 <= j < i ==> !Qualifies(wildcardDirs[j], steps))
                        ==> r == Some("/" + JoinWith(DirSteps(wildcardDirs[i]), "/"))
    ensures var r := if matched.Some? then matched else probed;
            (forall i :: 0 <= i < |wildcardDirs| ==> !Qualifies(wildcardDirs[i], steps)) ==>
              && (forall k :: 0 <= k < |steps| && HasWildcardUnder(wildcardDirs, steps[..k])
                              && (forall k' :: 0 <= k' < k ==> !HasWildcardUnder(wildcardDirs, steps[..k']))
                              ==> r == Some(ProbePath(steps[..k])))
              && ((forall k :: 0 <= k < |steps| ==> !HasWildcardUnder(wildcardDirs, steps[..k])) ==> r == None)
  {
    var first := FirstQualifying(wildcardDirs, steps, 0);
    if first < |wildcardDirs| {
      forall i | 0 <= i < |wildcardDirs| && Qualifies(wildcardDirs[i], steps)
                 && (forall j :: 0 <= j < i ==> !Qualifies(wildcardDirs[j], steps))
        ensures matched == Some("/" + JoinWith(DirSteps(wildcardDirs[i]), "/"))
      {
        assert i == first;
      }
    }
  }

  /** A trailing slash adds only an empty segment, which `removeBlanks` drops. */
  lemma PathStepsTrailingSlash(path: string)
    ensures PathSteps(path + "/") == PathSteps(path)
  {
    SplitOnConcat(path, '/', "");
    assert path + "/" == path + ['/'] + "";
    RemoveBlanksAppend(SplitOn(path, "/"), [""]);
  }

  /** A trailing slash on the request path does not change the wildcard directory chosen. */
  lemma GetWildcardPathTrailingSlash(path: string, wildcardDirs: seq<string>)
    ensures GetWildcardPath(path + "/", wildcardDirs) == GetWildcardPath(path, wildcardDirs)
  {
    PathStepsTrailingSlash(path);
  }
}

=== FILE: wrappers.dfy ===
/** The optional value used wherever the JavaScript code yields `undefined` or `null`. */
module Wrappers {

  datatype Option<+T> = None | Some(value: T) {

    /** The held value, or `default` when there is none. */
    function GetOr(default: T): T {
      match this
      case Some(v) => v
      case None => default
    }
  }
}
